=== FILE: README.md ===
# exif-be-gone: the chunked byte-pattern scanning layer, in Dafny

exif-be-gone is a TypeScript library. It removes sensitive metadata from image files as they
stream through a Web `TransformStream`. This project models the layer that reads the byte
stream chunk by chunk. That layer has these parts:

- the marker automaton `Matcher`;
- its bounded variant `Seeker`;
- the handler base class `TransformHandler`, which guards both entry points on the root
  transform;
- the spec-driven `Scanner`;
- the transformer of `src/ExifTransformer.ts`, which detects the file format (PNG, WebP1,
  WebP2) by signature, holds chunks while a signature is part-way matched, and re-enters
  leftover bytes through `transformComplete`;
- the legacy transformer of `src/Old2ExifTransformer.ts`, with its two-state APP1 handler;
- the byte-array comparison `compareUint8Arrays`.

Every handler is a pure state machine. For the handlers of `src/ExifTransformer.ts` (the
detector and the Scanner), one call returns a `TransformHandlers.Step` holding:

- the handler's next state;
- the events it emitted, in order: `Enqueue(chunk)` for `controller.enqueue`, and
  `Callback(name, arg)` for a scanner's `on<Name>` method;
- the leftover it handed back to the root transform, if any;
- the error it threw, if any.

The legacy handlers of `src/Old2ExifTransformer.ts` never re-enter. `App1Transform` returns the
APP1 handler's next state and the chunks it enqueued, and `LegacyTransform` returns a
`LegacyOutcome`.

`ExifTransformer.Dispatch` performs the re-entry. The leftover is always strictly shorter than
the chunk, so the recursion ends. `ExifTransformer.Run` feeds a whole input and stops at the
first error, as an errored stream does.

Modules, one per source file:

| module | file | source |
|---|---|---|
| `Bytes` | `bytes.dfy` | shared types: bytes, chunks, events, errors |
| `Markers` | `markers.dfy` | the marker literals of `src/constants.ts` |
| `Utils` | `utils.dfy` | `src/utils.ts` |
| `MarkerMatcher` | `matcher.dfy` | `src/Matcher.ts` |
| `BoundedSeeker` | `seeker.dfy` | `src/Seeker.ts` |
| `TransformHandlers` | `transform_handler.dfy` | `src/TransformHandler.ts` |
| `Scanning` | `scanner.dfy` | `src/transformHandlers/Scanner.ts` |
| `FormatDetection` | `format_detection.dfy` | the detection loop both transformers share |
| `ExifTransformer` | `exif_transformer.dfy` | `src/ExifTransformer.ts` |
| `Old2ExifTransformer` | `old2_exif_transformer.dfy` | `src/Old2ExifTransformer.ts` |

Two behaviours of the source are proved rather than assumed:

- **No format is ever `jpegOrTiff`.** Neither transformer has a JPEG/TIFF signature matcher,
  so the `else` arm of the `instanceof` chain cannot run. As a result, the JPEG/TIFF handler
  is never reached. The Scanner-based handler and the APP1 handler both end every input in
  their initial state (`ExifTransformer.JpegHandlerUnreachable`,
  `Old2ExifTransformer.LegacyApp1Unreachable`).
- **A detected signature's remainder is refused.** The detector enqueues the whole chunk,
  including the bytes after the signature. It then re-enters those bytes. The format is then
  PNG or WebP, so the re-entry throws "Unsupported file format"
  (`ExifTransformer.DetectedThenRemainderRejected`).

## Model

| member | source | states |
|---|---|---|
| Utils.CompareUint8Arrays | src/utils.ts:1-6 | true exactly when the two arrays are equal; different lengths always give false |
| Utils.EveryByteEqual | src/utils.ts:5 | `every` from index `from` holds exactly when the two arrays agree at every index from there on |
| Utils.CompareReflexive | src/utils.ts:1-6 | every array compares equal to itself |
| Utils.CompareSymmetric | src/utils.ts:1-6 | the comparison does not depend on argument order |
| Bytes.SubarrayEnd | src/Seeker.ts:74 | the end index `subarray(0, end)` uses: counted back from the array's end when negative, clamped to the array, and `end` itself when in range |
| Bytes.Enqueues | src/ExifTransformer.ts:114-117 | enqueuing a list of chunks yields one `Enqueue` event per chunk, in order |
| MarkerMatcher.New | src/Matcher.ts:24-29 | a new matcher holds its marker with the pointer at 0 |
| MarkerMatcher.Reset | src/Matcher.ts:64-67 | after `reset()` the matcher equals a freshly constructed one for the same marker |
| MarkerMatcher.Advance | src/Matcher.ts:45-46 | accepting a byte extends the matched prefix of the marker by exactly that byte |
| MarkerMatcher.Step | src/Matcher.ts:32-54 | a byte completes the marker only when the matched prefix plus the byte is the whole marker, and the pointer then drops to 0; otherwise the new matched prefix is a suffix of the old prefix plus the byte |
| MarkerMatcher.Feed | src/Matcher.ts:31-62 | a match resets the pointer and returns fewer bytes than it was given; without a match, MATCHING exactly when a partial match is pending, else UNMATCHED |
| MarkerMatcher.FeedRemainder | src/Matcher.ts:48-53 | `remainingChunk` is exactly the suffix of the chunk after the completing byte |
| MarkerMatcher.FeedLoop | src/Matcher.ts:31-62 | the `for` loop with its early return computes exactly `Feed` |
| MarkerMatcher.FeedEmpty | src/Matcher.ts:57-61 | an empty chunk reports the current state and changes nothing |
| MarkerMatcher.FeedSplit | src/Matcher.ts:31-62 | when `a` completes no match, feeding `a` then `b` gives the same result and state as feeding `a + b` |
| MarkerMatcher.FeedSplitMatched | src/Matcher.ts:48-53 | when `a` completes a match, feeding `a + b` gives the same match, with `b` appended to the remainder |
| MarkerMatcher.FeedMarkerPart | src/Matcher.ts:31-59 | completeness, part way: fed the marker bytes from its pointer `i` up to `j`, short of the end, the matcher reports MATCHING with its pointer at `j` |
| MarkerMatcher.FeedMarkerRest | src/Matcher.ts:31-54 | completeness: fed the rest of the marker from its pointer on, and then any bytes, the matcher reports MATCHED with exactly those bytes as the remainder, and is reset |
| MarkerMatcher.StepSound | src/Matcher.ts:32-54 | one byte keeps the partial match a suffix of the history; a completed match means the history now ends with the marker |
| MarkerMatcher.FeedSoundMatched | src/Matcher.ts:31-55 | no false positive: on MATCHED, the history followed by the consumed bytes ends with the marker, even across chunks |
| MarkerMatcher.FeedSoundPending | src/Matcher.ts:31-61 | without a match, the pending partial match is a suffix of the history followed by the chunk |
| MarkerMatcher.BreakingByteNotRetested | src/Matcher.ts:37-42 | a byte that breaks a partial match resets the matcher and is not compared with the first marker byte |
| MarkerMatcher.MissedOverlappingMatch | src/Matcher.ts:37-42 | `FF FF E1` contains the APP1 marker `FF E1`, yet the matcher reports UNMATCHED for it |
| BoundedSeeker.New | src/Seeker.ts:33-44 | the ceiling is the given one, or 0 when none is given; count and pointer start at 0 |
| BoundedSeeker.Scan | src/Seeker.ts:51-84 | every examined byte is counted; on a match, `soFarChunk + remainingChunk` is the chunk and `preceedingBytes` is the chunk cut at the JS `subarray` end; MATCHING exactly when a partial match is pending |
| BoundedSeeker.Feed | src/Seeker.ts:46-85 | ENDED exactly when a ceiling is set and the count is already past it, and then nothing changes; otherwise the count grows by the bytes examined and the slices of `Scan` hold |
| BoundedSeeker.ScanAgrees | src/Seeker.ts:51-84 | from any index on, the seeker's loop gives the same result kind, pointer and remainder as `Matcher.feed` on the rest of the chunk |
| BoundedSeeker.SeekerAgreesWithMatcher | src/Seeker.ts:46-85 | below the ceiling, `Seeker.feed` agrees with `Matcher.feed` on the result kind, the pointer and the remainder |
| BoundedSeeker.NoCeilingNeverEnds | src/Seeker.ts:47-49 | with no ceiling (0), ENDED is never reported |
| BoundedSeeker.CeilingCheckedOnEntry | src/Seeker.ts:47-52 | a chunk that carries the count past the ceiling is still examined to its end; only the next call reports ENDED |
| BoundedSeeker.PrecedingWithinChunk | src/Seeker.ts:70-76 | when the marker lies inside the chunk, `preceedingBytes + marker + remainingChunk` is the chunk |
| BoundedSeeker.PrecedingAcrossChunks | src/Seeker.ts:74 | when the match began in an earlier chunk, the negative end is counted back from the end of the chunk |
| BoundedSeeker.PrecedingQuirkExample | src/Seeker.ts:74 | for `FF E1` split as `FF` / `E1 00 01`, `preceedingBytes` is `E1 00`, which is marker and remainder bytes |
| TransformHandlers.Unset | src/TransformHandler.ts:2-11 | a new handler has no root transform |
| TransformHandlers.SetRootTransform | src/TransformHandler.ts:13-22 | afterwards the root transform is set |
| TransformHandlers.Transform | src/TransformHandler.ts:24-33 | without a root it throws "Parent transform stream is not set", emitting and changing nothing; with one it does exactly what `handleTransform` does |
| TransformHandlers.TransformComplete | src/TransformHandler.ts:35-44 | with a root, the chunk goes back to the root unchanged; without one, the guard throws instead |
| Scanning.New | src/transformHandlers/Scanner.ts:66-70 | a new scanner starts at spec 0 with the given specs |
| Scanning.CallbackName | src/transformHandlers/Scanner.ts:83-85 | the name is `on` followed by the spec name with its first character upper-cased |
| Scanning.UpperCase | src/transformHandlers/Scanner.ts:84 | ASCII lower-case letters map to their upper-case letters; every other character is unchanged |
| Scanning.Call | src/transformHandlers/Scanner.ts:94-96 | a callback the subclass defines is called with the argument; an undefined one is skipped |
| Scanning.HandleTransform | src/transformHandlers/Scanner.ts:72-131 | the spec index never goes back and moves by one at most; what goes back to the root is a non-empty proper suffix of the chunk |
| Scanning.Transform | src/TransformHandler.ts:24-33 | the guard then `handleTransform`, keeping the same invariants |
| Scanning.WithMatcher | src/transformHandlers/Scanner.ts:88 | feeding a spec's matcher changes that spec's matcher only |
| Scanning.MatcherStep | src/transformHandlers/Scanner.ts:87-113 | the marker branch keeps the scanner valid and re-enters only a proper suffix |
| Scanning.BytesStep | src/transformHandlers/Scanner.ts:115-130 | the byte-count branch leaves the scanner unchanged and always throws |
| Scanning.PassThrough | src/transformHandlers/Scanner.ts:76-81 | past the last spec, the chunk is enqueued unchanged and nothing else happens |
| Scanning.MatcherUnmatched | src/transformHandlers/Scanner.ts:105-107 | on UNMATCHED the chunk is enqueued unchanged, the spec stays, and the scanner is exactly as before except for the matcher the chunk left |
| Scanning.MatcherMatchingDrops | src/transformHandlers/Scanner.ts:103-104 | on MATCHING nothing is emitted and only the matcher's pointer changes |
| Scanning.MatcherMatched | src/transformHandlers/Scanner.ts:91-101 | on MATCHED the spec index moves on, the callback receives the marker, no chunk bytes are enqueued, and the remainder goes back to the root exactly when it is non-empty |
| Scanning.BytesSpecThrows | src/transformHandlers/Scanner.ts:115-130 | the callback receives the first `numOfBytes` bytes, the rest goes back to the root, the spec index stays, and "Invalid spec" is thrown |
| Scanning.NoCallbacksOnlyEnqueues | src/transformHandlers/Scanner.ts:72-131 | a scanner with no `on<Name>` methods emits nothing but the whole chunk it was given |
| Scanning.SpecIndexMonotone | src/transformHandlers/Scanner.ts:66-131 | over any sequence of chunks the spec index never decreases |
| Scanning.Steps | src/transformHandlers/Scanner.ts:72-131 | successive calls keep the scanner valid, the handler and the number of specs |
| FormatDetection.MarkerOf | src/constants.ts:3-7 | every matcher class has a non-empty marker |
| FormatDetection.FormatOf | src/ExifTransformer.ts:95-103 | the `instanceof` chain yields `jpegOrTiff` exactly for a class other than PNG, WebP1 and WebP2 |
| FormatDetection.InitialMatchers | src/ExifTransformer.ts:68-72 | the detector's matchers are new PNG, WebP1 and WebP2 matchers, in that order |
| FormatDetection.FeedMatchers | src/ExifTransformer.ts:91-111 | the loop keeps every matcher valid and every matcher's class |
| FormatDetection.Detect | src/ExifTransformer.ts:87-111 | one pass keeps every matcher valid and every matcher's class |
| FormatDetection.FirstMatch | src/ExifTransformer.ts:91-106 | the reference definition: the first matcher that completes its signature, or none |
| FormatDetection.FeedMatchersFirstMatch | src/ExifTransformer.ts:91-111 | the loop detects exactly the format of the first matcher that matches, with its remainder; with no match, `anyMatching` is true exactly when some matcher reported MATCHING |
| FormatDetection.FeedMatchersKeepsEarlier | src/ExifTransformer.ts:91-111 | the loop leaves the matchers before its start untouched |
| FormatDetection.FeedMatchersFed | src/ExifTransformer.ts:91-106 | every matcher up to and including the first match has been fed the chunk |
| FormatDetection.FeedMatchersLaterUnseen | src/ExifTransformer.ts:105 | the matchers after the first match never see the chunk |
| FormatDetection.DetectsNoJpeg | src/ExifTransformer.ts:95-103 | the PNG, WebP1 and WebP2 matchers never yield `jpegOrTiff` |
| FormatDetection.NoSignatureStartRejected | src/ExifTransformer.ts:91-111 | a chunk in which no signature even starts is refused by fresh matchers (no MATCHED, no MATCHING), and leaves them as they were |
| FormatDetection.PngHead | src/ExifTransformer.ts:91-111 | the first `j` bytes of the PNG signature (0 < j < 8) detect nothing, report a signature in progress, and leave the PNG matcher `j` bytes in |
| FormatDetection.PngTail | src/ExifTransformer.ts:91-106 | with the PNG matcher `j` bytes in, the rest of the signature and any bytes after it detect PNG, with exactly those bytes as the remainder |
| FormatDetection.SplitSignatureDetected | src/ExifTransformer.ts:91-111 | a PNG signature split anywhere across two chunks is detected on the second through the stored matchers, while the second chunk alone, through fresh matchers, is refused |
| ExifTransformer.NewJpegHandler | src/ExifTransformer.ts:134-146 | the JPEG/TIFF handler scans for the APP1 marker `FF E1`, then for 2 bytes, and defines no callbacks |
| ExifTransformer.NewDetector | src/ExifTransformer.ts:66-74 | a new detector holds nothing, knows no format and has the three signature matchers |
| ExifTransformer.New | src/ExifTransformer.ts:57-64 | the transformer is built from a new JPEG/TIFF handler and a new detector |
| ExifTransformer.DetectorHandleTransform | src/ExifTransformer.ts:83-132 | the matchers are stored as the pass left them, so a signature may span chunks; the format changes only to the detected one and is never cleared; any re-entry is shorter than the chunk |
| ExifTransformer.Route | src/ExifTransformer.ts:31-54 | with `jpegOrTiff` the chunk goes to the JPEG/TIFF scanner's guarded `transform`; with no format, the detector's guard and then its `handleTransform` run; with any other format, "Unsupported file format" is thrown and nothing changes; each handler leaves the other alone |
| ExifTransformer.NewReachable | src/ExifTransformer.ts:57-74 | a new transformer is in a reachable state |
| ExifTransformer.FormatKnownRejects | src/ExifTransformer.ts:47-54 | once a format is known, every chunk is refused with "Unsupported file format" |
| ExifTransformer.DetectedThenRemainderRejected | src/ExifTransformer.ts:113-124 | on detection, the held chunks and the whole chunk are enqueued and the format is set; a non-empty remainder is then refused |
| ExifTransformer.UndetectedHolds | src/ExifTransformer.ts:126-129 | a part-way signature holds the chunk and emits nothing |
| ExifTransformer.UndetectedRejects | src/ExifTransformer.ts:131 | with no signature in progress, "Unsupported image format" is thrown and nothing is emitted |
| ExifTransformer.Dispatch | src/ExifTransformer.ts:31-45 | one call of the stream's `transform`, each `transformComplete` re-entry included, keeps the transformer valid; the recursion ends because every re-entry is shorter |
| ExifTransformer.Run | src/ExifTransformer.ts:21-25 | the stream fed its chunks in order, stopping at the first error, keeps the transformer valid |
| ExifTransformer.DispatchReachable | src/ExifTransformer.ts:31-45 | one call, re-entries included, stays among the reachable states |
| ExifTransformer.RunReachable | src/ExifTransformer.ts:31-45 | a whole stream stays among the reachable states |
| ExifTransformer.JpegHandlerUnreachable | src/ExifTransformer.ts:47-54 | from a new transformer the format never becomes `jpegOrTiff` and the JPEG/TIFF handler ends every input as constructed |
| ExifTransformer.FormatKnownRunRejects | src/ExifTransformer.ts:33-38 | with a format known, the stream refuses the next chunk at once |
| ExifTransformer.RunAfterDetection | src/ExifTransformer.ts:113-124 | the chunk that detects a format ends what the stream enqueues |
| ExifTransformer.RunAfterHold | src/ExifTransformer.ts:126-129 | a held chunk changes only the held list and the matchers, which are stored as the pass left them |
| ExifTransformer.RunEmitsPrefix | src/ExifTransformer.ts:83-132 | the stream enqueues nothing, or the held chunks followed by the first `n` inputs, whole and in order |
| ExifTransformer.NewEmitsPrefix | src/ExifTransformer.ts:57-132 | from a new transformer, what is enqueued is the first `n` input chunks, whole and in order |
| ExifTransformer.EmptyEmitsPrefix | src/ExifTransformer.ts:83-132 | the same, from any reachable state that holds nothing and knows no format |
| ExifTransformer.HoldThenDetect | src/ExifTransformer.ts:113-129 | a chunk held and then one that completes a signature through the stored matchers are both enqueued, whole and in order; bytes after the signature are refused with "Unsupported file format", and with none nothing is thrown |
| ExifTransformer.SplitSignatureRun | src/ExifTransformer.ts:83-132 | from a new transformer, a PNG signature split anywhere across the first two chunks is detected, both chunks are enqueued whole, and any bytes after the signature are refused |
| Old2ExifTransformer.NewApp1Handler | src/Old2ExifTransformer.ts:101-111 | the APP1 handler starts waiting, holding nothing, with a fresh `FF E1` matcher |
| Old2ExifTransformer.App1Transform | src/Old2ExifTransformer.ts:113-149 | once the marker is found, every chunk is dropped; while waiting, the matcher is stored as the chunk left it, and the enqueued chunks followed by the held ones are the old held chunks plus this one; UNMATCHED enqueues every held chunk and then the chunk, and clears the held list; the state moves on exactly on MATCHED |
| Old2ExifTransformer.App1Run | src/Old2ExifTransformer.ts:113-149 | the handler fed chunk after chunk stays valid |
| Old2ExifTransformer.App1FoundDropsAll | src/Old2ExifTransformer.ts:144-145 | the "found" state is never left and drops every chunk |
| Old2ExifTransformer.App1RunConserves | src/Old2ExifTransformer.ts:117-143 | while still waiting, no chunk is lost or invented over a whole stream |
| Old2ExifTransformer.App1RunPrefix | src/Old2ExifTransformer.ts:113-149 | what the handler enqueues is an in-order prefix of what it held and was given |
| Old2ExifTransformer.NewLegacy | src/Old2ExifTransformer.ts:15-34 | a new legacy transformer holds nothing, knows no format, has the three signature matchers and a new APP1 handler |
| Old2ExifTransformer.LegacyTransform | src/Old2ExifTransformer.ts:36-93 | with `jpegOrTiff` every chunk goes to the APP1 handler and nothing is thrown; with another format the chunk is refused; detection never touches the APP1 handler and stores the matchers as the pass left them; a detection enqueues the held chunks and the chunk, and never re-enters the remainder; MATCHING holds; otherwise "Unsupported image format" |
| Old2ExifTransformer.LegacyRun | src/Old2ExifTransformer.ts:35-40 | the legacy stream fed its chunks in order, stopping at the first error, stays valid |
| Old2ExifTransformer.LegacyRunReachable | src/Old2ExifTransformer.ts:36-93 | the legacy stream stays among its reachable states |
| Old2ExifTransformer.LegacyTransformReachable | src/Old2ExifTransformer.ts:36-82 | one chunk keeps the legacy stream reachable |
| Old2ExifTransformer.LegacyApp1Unreachable | src/Old2ExifTransformer.ts:86-93 | from a new legacy transformer, the APP1 handler is never reached |
| Old2ExifTransformer.LegacyRunPrefix | src/Old2ExifTransformer.ts:66-79 | what the legacy stream enqueues is an in-order prefix of what it held and was given |

## Left out

- Web Streams plumbing. `TransformStream` and its controller are modelled as the list of
  emitted events. An error errors the stream, so later chunks are never transformed.
  Flushing and back-pressure are not modelled.
- The root wiring at src/ExifTransformer.ts:27-28. It assigns to `rootTransform`, which has
  only a getter (src/TransformHandler.ts:7-9). In the strict mode of a class body such an
  assignment raises a `TypeError`, so the constructor as written does not install a root.
  `ExifTransformer.New` instead installs the root on both handlers through
  `TransformHandlers.SetRootTransform`, as `setRootTransform` would. Every property of
  `ExifTransformer` is stated for that intended wiring.
- The `pending` buffers of `Matcher` (src/Matcher.ts:23,28,45,65) and `Seeker`
  (src/Seeker.ts:31,43,66,88). They are written but never read, so they affect no result.
- Scanning.BytesStep: only positive `numOfBytes` are modelled (`Scanning.Count`). A count of
  0 makes `subarray(0)` the whole chunk, which is handed back to the root unchanged. A count of
  -k makes `subarray(-k)` the last k bytes (src/transformHandlers/Scanner.ts:123). Those are the
  whole chunk when k is at least its length. The next call on those k bytes hands all of them
  back again. Either way the re-entry never ends.
- Scanning.UpperCase: models `toUpperCase` for ASCII letters only. Unicode case mapping is
  not modelled.
- Byte-array helpers of `src/constants.ts`. `hexToBytes` is an external library function; its
  results appear as byte literals in `Markers`. `exifMarker` and the `EXIFMarkereMatcher`
  class that uses it are referenced by neither transformer.
- The `Matcher` subclasses of `src/matchers/`. They differ only in their marker, and are
  modelled as the tags of `FormatDetection.MatcherClass`.
- The legacy APP1 handler's root transform. It overrides `transform` without the base
  class's guard and never calls `transformComplete`, so its root is never consulted.
- What a reader of an errored stream sees. The model keeps, in `emitted`, every chunk enqueued
  before an error in the same call. A Web stream that errors may discard chunks still queued,
  so a reader may not receive them.
- Aliasing of held chunks. The held `Uint8Array`s and the remainders made by `subarray` share
  memory with the caller's arrays. The model treats chunks as values, so a caller that later
  writes into a chunk it passed in is not modelled.
- What an `on<Name>` callback does. A call is recorded as one `Callback` event; the callback's
  own effects (enqueueing through the controller, throwing, re-entering the stream) are not
  modelled. The only concrete scanner, the JPEG/TIFF handler, defines no callbacks.
- The tests in `spec/` and the build tooling.

=== FILE: bytes.dfy ===
/** Bytes, chunks, stream events and thrown errors shared by every component of the scanning layer. */
module Bytes {

  /** One element of a `Uint8Array`. */
  type Byte = bv8

  /** A `Uint8Array` chunk as it flows through the transform stream. */
  type Chunk = seq<Byte>

  datatype Option<+T> = None | Some(value: T)

  /** What a handler does to the stream, in order: `controller.enqueue(chunk)`, or a call of
      one of a scanner's `on<Name>` callbacks with the bytes it is handed. A callback event
      records the call only; what the callback itself does is not modelled. */
  datatype Event = Enqueue(chunk: Chunk) | Callback(name: string, arg: Chunk)

  /** The exceptions thrown by the scanning layer, one constructor per message. */
  datatype Error =
    | ParentTransformStreamNotSet   // "Parent transform stream is not set"
    | InvalidSpec                   // "Invalid spec"
    | UnsupportedImageFormat        // "Unsupported image format"
    | UnsupportedFileFormat         // "Unsupported file format"

  /** The events of enqueuing `chunks` one after another. */
  function Enqueues(chunks: seq<Chunk>): (r: seq<Event>)
    ensures |r| == |chunks|
    ensures forall i :: 0 <= i < |chunks| ==> r[i] == Enqueue(chunks[i])
  {
    if chunks == [] then [] else [Enqueue(chunks[0])] + Enqueues(chunks[1..])
  }

  /** `s` ends with `t`. */
  predicate EndsWith(s: Chunk, t: Chunk) {
    |t| <= |s| && s[|s| - |t|..] == t
  }

  lemma EndsWithShorten(u: Chunk, s: Chunk, t: Chunk)
    requires EndsWith(u + s, t) && |t| <= |s|
    ensures EndsWith(s, t)
  {
    assert (u + s)[|u + s| - |t|..] == s[|s| - |t|..];
  }

  lemma EndsWithSnoc(s: Chunk, t: Chunk, b: Byte)
    requires EndsWith(s, t)
    ensures EndsWith(s + [b], t + [b])
  {
    var u := s[..|s| - |t|];
    assert s == u + t;
    assert s + [b] == u + (t + [b]);
  }

  lemma EndsWithTrans(a: Chunk, b: Chunk, c: Chunk)
    requires EndsWith(a, b) && EndsWith(b, c)
    ensures EndsWith(a, c)
  {
    var u := a[..|a| - |b|];
    assert a == u + b;
    var v := b[..|b| - |c|];
    assert b == v + c;
    assert a == (u + v) + c;
  }

  /** Moving the first element of `chunk` onto the end of `h`, for a prefix of the chunk. */
  lemma ShiftPrefix<T>(h: seq<T>, chunk: seq<T>, k: nat)
    requires k < |chunk|
    ensures (h + [chunk[0]]) + chunk[1..][..k] == h + chunk[..k + 1]
  {
  }

  /** Moving the first element of `chunk` onto the end of `h`. */
  lemma Shift<T>(h: seq<T>, chunk: seq<T>)
    requires 0 < |chunk|
    ensures (h + [chunk[0]]) + chunk[1..] == h + chunk
  {
    assert chunk == [chunk[0]] + chunk[1..];
  }

  /** Cutting a chunk at `k` and joining the halves gives it back. */
  lemma SplitAt(c: Chunk, k: nat)
    requires k <= |c|
    ensures c[..k] + c[k..] == c
  {
  }

  /** Cutting a chunk at `a` and `b` and joining the three pieces gives it back. */
  lemma SplitTwice(c: Chunk, a: nat, b: nat)
    requires a <= b <= |c|
    ensures c[..a] + c[..b][a..] + c[b..] == c
  {
    assert c[..a] + c[..b][a..] == c[..b];
  }

  /** The end index `TypedArray.prototype.subarray(0, end)` uses on an array of `length`
      elements: a negative `end` counts back from the end of the array, and the result is
      clamped to `[0, length]`. */
  function SubarrayEnd(length: nat, end: int): (e: nat)
    ensures e <= length
    ensures 0 <= end <= length ==> e == end
    ensures end < 0 && 0 <= length + end ==> e == length + end
    ensures end > length ==> e == length
    ensures length + end < 0 ==> e == 0
  {
    if end < 0 then
      (if length + end < 0 then 0 else length + end)
    else if end > length then length
    else end
  }
}

=== FILE: exif_transformer.dfy ===
/** `ExifTransformer`: the transform stream that routes each chunk either to file-format detection
    or, once a format is known, to the handler for that format, and that leftover bytes re-enter
    through `transformComplete`. */
module ExifTransformer {
  import opened Bytes
  import MarkerMatcher
  import Markers
  import opened TransformHandlers
  import Scanning
  import opened FormatDetection

  /** `FileFormatDeterminationTransformHandler`: its handler base, the chunks held while some
      signature is part-way matched, its matchers and the detected format. */
  datatype Detector = Detector(
    handler: Handler,
    matchingChunks: seq<Chunk>,
    matchers: seq<ClassedMatcher>,
    fileFormat: Option<Format>)

  /** `SensitiveDataRemovalTransformer`: the JPEG/TIFF handler and the detector. */
  datatype Transformer = Transformer(jpegOrTiff: Scanning.Scanner, detector: Detector)

  /** What the stream did with some input: its state afterwards, the events in order, and the
      error that errored the stream, if any. */
  datatype Outcome = Outcome(transformer: Transformer, emitted: seq<Event>, thrown: Option<Error>)

  /** The spec list of `JPEGOrTIFFGPSRemovingTransformHandler`. */
  const JpegSpecs: seq<Scanning.Spec> := [
    Scanning.MatcherSpec("app1Marker", MarkerMatcher.New(Markers.App1Marker)),
    Scanning.BytesSpec("app1RemainingBytes", 2)
  ]

  /** A new `JPEGOrTIFFGPSRemovingTransformHandler`, with its root transform installed: a scanner
      over `JpegSpecs` whose subclass defines no `on<Name>` method. */
  function NewJpegHandler(): (sc: Scanning.Scanner)
    ensures Scanning.Valid(sc) && sc.handler.rootTransformSet && sc.specIndex == 0
    ensures sc.callbacks == {}
    ensures |sc.specs| == 2
    ensures sc.specs[0].MatcherSpec? && sc.specs[0].name == "app1Marker"
    ensures sc.specs[0].matcher.marker == [0xFF, 0xE1] && sc.specs[0].matcher.matchingPointer == 0
    ensures sc.specs[1].BytesSpec? && sc.specs[1].name == "app1RemainingBytes"
    ensures sc.specs[1].numOfBytes == 2
  {
    Scanning.New(SetRootTransform(Unset()), JpegSpecs, {})
  }

  /** A new detector, with its root transform installed: nothing held, the three signature
      matchers, no format. */
  function NewDetector(): (d: Detector)
    ensures DetectorValid(d) && d.handler.rootTransformSet && Detectors(d.matchers)
    ensures d.matchingChunks == [] && d.fileFormat.None?
  {
    Detector(SetRootTransform(Unset()), [], InitialMatchers(), None)
  }

  /** `new ExifTransformer()`, with both handlers' root transform set to the transformer's own
      `transform`. */
  function New(): (t: Transformer)
    ensures Valid(t) && t.jpegOrTiff == NewJpegHandler() && t.detector == NewDetector()
  {
    Transformer(NewJpegHandler(), NewDetector())
  }

  predicate DetectorValid(d: Detector) {
    ValidMatchers(d.matchers)
  }

  predicate Valid(t: Transformer) {
    DetectorValid(t.detector) && Scanning.Valid(t.jpegOrTiff)
  }

  /** `FileFormatDeterminationTransformHandler.handleTransform(chunk)`. */
  function DetectorHandleTransform(d: Detector, chunk: Chunk): (r: Step<Detector>)
    requires DetectorValid(d)
    ensures DetectorValid(r.state) && r.state.handler == d.handler
    ensures |r.state.matchers| == |d.matchers|
    ensures forall k :: 0 <= k < |d.matchers| ==> r.state.matchers[k].cls == d.matchers[k].cls
    // the matchers are stored as the chunk left them, so a signature may span chunks
    ensures r.state.matchers == Detect(d.matchers, chunk).1
    // the format changes only to the one a signature detected, and is never cleared
    ensures r.state.fileFormat != d.fileFormat ==>
              && Detect(d.matchers, chunk).0.Detected?
              && r.state.fileFormat == Some(Detect(d.matchers, chunk).0.format)
    ensures d.fileFormat.Some? ==> r.state.fileFormat.Some?
    ensures r.redispatch.Some? ==> |r.redispatch.value| < |chunk|
  {
    FeedMatchersFirstMatch(d.matchers, chunk, 0, false);
    var det := Detect(d.matchers, chunk);
    var d' := d.(matchers := det.1);
    match det.0
    case Detected(format, rest) =>
      var events := Enqueues(d.matchingChunks + [chunk]);
      var found := d'.(matchingChunks := [], fileFormat := Some(format));
      if |rest| > 0 then TransformComplete(d.handler, found, events, rest, None)
      else Step(found, events, None, None)
    case Undetected(anyMatching) =>
      if anyMatching then Step(d'.(matchingChunks := d.matchingChunks + [chunk]), [], None, None)
      else Step(d', [], None, Some(UnsupportedImageFormat))
  }

  /** `SensitiveDataRemovalTransformer.transform(chunk)`, one call, with the re-entry it asks for
      left in `redispatch`: the detector until a format is known, then the handler that
      `getFileSpecificTransformHandler` picks — the JPEG/TIFF scanner for `jpegOrTiff`, and
      "Unsupported file format" for every other format. */
  function Route(t: Transformer, chunk: Chunk): (r: Step<Transformer>)
    requires Valid(t)
    ensures Valid(r.state)
    ensures r.redispatch.Some? ==> |r.redispatch.value| < |chunk|
    ensures t.detector.fileFormat.Some? && t.detector.fileFormat.value != JpegOrTiff ==>
              r == Step(t, [], None, Some(UnsupportedFileFormat))
    ensures t.detector.fileFormat.None? ==> r.state.jpegOrTiff == t.jpegOrTiff
    ensures t.detector.fileFormat == Some(JpegOrTiff) ==> r.state.detector == t.detector
    // `jpegOrTiff`: the chunk goes to the JPEG/TIFF scanner, through its guarded `transform`
    ensures t.detector.fileFormat == Some(JpegOrTiff) ==>
              var s := Scanning.Transform(t.jpegOrTiff, chunk);
              r == Step(t.(jpegOrTiff := s.state), s.emitted, s.redispatch, s.thrown)
    // no format yet: the detector's guard, then its `handleTransform`
    ensures t.detector.fileFormat.None? && !t.detector.handler.rootTransformSet ==>
              r == Step(t, [], None, Some(ParentTransformStreamNotSet))
    ensures t.detector.fileFormat.None? && t.detector.handler.rootTransformSet ==>
              var d := DetectorHandleTransform(t.detector, chunk);
              r == Step(t.(detector := d.state), d.emitted, d.redispatch, d.thrown)
  {
    if t.detector.fileFormat.Some? then
      if t.detector.fileFormat.value == JpegOrTiff then
        var st := Scanning.Transform(t.jpegOrTiff, chunk);
        Step(t.(jpegOrTiff := st.state), st.emitted, st.redispatch, st.thrown)
      else
        Step(t, [], None, Some(UnsupportedFileFormat))
    else
      var st := TransformHandlers.Transform(t.detector.handler, t.detector, chunk, DetectorHandleTransform);
      Step(t.(detector := st.state), st.emitted, st.redispatch, st.thrown)
  }

  /** The stream's `transform(chunk)`, including every re-entry through `transformComplete`:
      the events of the call, then those of the re-entry; an error thrown inside the re-entry
      propagates, otherwise the call's own error (if any) is thrown once it returns. */
  function Dispatch(t: Transformer, chunk: Chunk): (o: Outcome)
    requires Valid(t)
    ensures Valid(o.transformer)
    decreases |chunk|
  {
    var st := Route(t, chunk);
    if st.redispatch.None? then Outcome(st.state, st.emitted, st.thrown)
    else
      var o := Dispatch(st.state, st.redispatch.value);
      Outcome(o.transformer, st.emitted + o.emitted, if o.thrown.Some? then o.thrown else st.thrown)
  }

  /** The stream fed chunk after chunk; the first error errors the stream and the chunks after
      it are never transformed. */
  function Run(t: Transformer, chunks: seq<Chunk>): (o: Outcome)
    requires Valid(t)
    ensures Valid(o.transformer)
    decreases |chunks|
  {
    if chunks == [] then Outcome(t, [], None)
    else
      var o := Dispatch(t, chunks[0]);
      if o.thrown.Some? then o
      else
        var rest := Run(o.transformer, chunks[1..]);
        Outcome(rest.transformer, o.emitted + rest.emitted, rest.thrown)
  }

  /** The states reachable from `New()`: the JPEG/TIFF scanner untouched, the detector's three
      signature matchers, never a `jpegOrTiff` format, and nothing held once a format is known. */
  predicate Reachable(t: Transformer) {
    && Valid(t)
    && t.jpegOrTiff == NewJpegHandler()
    && t.detector.handler.rootTransformSet
    && Detectors(t.detector.matchers)
    && t.detector.fileFormat != Some(JpegOrTiff)
    && (t.detector.fileFormat.Some? ==> t.detector.matchingChunks == [])
  }

  lemma NewReachable()
    ensures Reachable(New())
  {
  }

  /** Once a format is known it can only be PNG or WebP, so every chunk is refused with
      "Unsupported file format", emitting nothing and changing nothing. */
  lemma FormatKnownRejects(t: Transformer, chunk: Chunk)
    requires Reachable(t) && t.detector.fileFormat.Some?
    ensures Dispatch(t, chunk) == Outcome(t, [], Some(UnsupportedFileFormat))
  {
  }

  /** Detection finds a signature: the held chunks and then the whole current chunk are enqueued,
      the format is set, and a non-empty remainder after the signature re-enters the stream —
      which refuses it, the format being PNG or WebP. */
  lemma DetectedThenRemainderRejected(t: Transformer, chunk: Chunk)
    requires Reachable(t) && t.detector.fileFormat.None?
    requires Detect(t.detector.matchers, chunk).0.Detected?
    ensures var det := Detect(t.detector.matchers, chunk).0;
            var o := Dispatch(t, chunk);
            && o.emitted == Enqueues(t.detector.matchingChunks + [chunk])
            && o.transformer.detector.fileFormat == Some(det.format)
            && det.format != JpegOrTiff
            && o.transformer.detector.matchingChunks == []
            && (|det.remainingChunk| > 0 ==> o.thrown == Some(UnsupportedFileFormat))
            && (|det.remainingChunk| == 0 ==> o.thrown.None?)
  {
    DetectsNoJpeg(t.detector.matchers, chunk);
    var st := Route(t, chunk);
    if st.redispatch.Some? {
      FormatKnownRejects(st.state, st.redispatch.value);
    }
  }

  /** No signature completed but one is part-way: the chunk is held and nothing is emitted. */
  lemma UndetectedHolds(t: Transformer, chunk: Chunk)
    requires Reachable(t) && t.detector.fileFormat.None?
    requires Detect(t.detector.matchers, chunk).0 == Undetected(true)
    ensures var o := Dispatch(t, chunk);
            && o.emitted == [] && o.thrown.None?
            && o.transformer.detector.matchingChunks == t.detector.matchingChunks + [chunk]
            && o.transformer.detector.fileFormat.None?
  {
  }

  /** Every matcher reports UNMATCHED: "Unsupported image format" is thrown, and the held chunks
      are never emitted. */
  lemma UndetectedRejects(t: Transformer, chunk: Chunk)
    requires Reachable(t) && t.detector.fileFormat.None?
    requires Detect(t.detector.matchers, chunk).0 == Undetected(false)
    ensures var o := Dispatch(t, chunk);
            o.emitted == [] && o.thrown == Some(UnsupportedImageFormat)
  {
  }

  /** One `transform` call, re-entries included, stays among the reachable states. */
  lemma DispatchReachable(t: Transformer, chunk: Chunk)
    requires Reachable(t)
    ensures Reachable(Dispatch(t, chunk).transformer)
  {
    if t.detector.fileFormat.Some? {
      FormatKnownRejects(t, chunk);
    } else {
      DetectsNoJpeg(t.detector.matchers, chunk);
      var st := Route(t, chunk);
      assert Reachable(st.state);
      if st.redispatch.Some? {
        FormatKnownRejects(st.state, st.redispatch.value);
      }
    }
  }

  /** The whole stream stays among the reachable states. */
  lemma {:induction false} RunReachable(t: Transformer, chunks: seq<Chunk>)
    requires Reachable(t)
    ensures Reachable(Run(t, chunks).transformer)
    decreases |chunks|
  {
    if chunks != [] {
      DispatchReachable(t, chunks[0]);
      var o := Dispatch(t, chunks[0]);
      if o.thrown.None? {
        RunReachable(o.transformer, chunks[1..]);
      }
    }
  }

  /** Whatever the input, the format never becomes `jpegOrTiff` and the JPEG/TIFF scanner is
      never reached: it ends in the state it was constructed in. */
  lemma JpegHandlerUnreachable(chunks: seq<Chunk>)
    ensures Run(New(), chunks).transformer.detector.fileFormat != Some(JpegOrTiff)
    ensures Run(New(), chunks).transformer.jpegOrTiff == NewJpegHandler()
  {
    RunReachable(New(), chunks);
  }

  /** With a format known, the stream refuses the next chunk at once. */
  lemma FormatKnownRunRejects(t: Transformer, chunks: seq<Chunk>)
    requires Reachable(t) && t.detector.fileFormat.Some? && chunks != []
    ensures Run(t, chunks) == Outcome(t, [], Some(UnsupportedFileFormat))
  {
    FormatKnownRejects(t, chunks[0]);
  }

  /** A chunk in which a signature is detected ends what the stream enqueues: the held chunks
      and that chunk. */
  lemma RunAfterDetection(t: Transformer, chunks: seq<Chunk>)
    requires Reachable(t) && t.detector.fileFormat.None? && chunks != []
    requires Detect(t.detector.matchers, chunks[0]).0.Detected?
    ensures Run(t, chunks).emitted == Enqueues(t.detector.matchingChunks + chunks[..1])
  {
    var o := Dispatch(t, chunks[0]);
    DetectedThenRemainderRejected(t, chunks[0]);
    DispatchReachable(t, chunks[0]);
    assert chunks[..1] == [chunks[0]];
    if o.thrown.None? {
      if chunks[1..] != [] {
        FormatKnownRunRejects(o.transformer, chunks[1..]);
      }
      var rest := Run(o.transformer, chunks[1..]);
      assert rest.emitted == [];
      assert Run(t, chunks).emitted == o.emitted + rest.emitted;
    }
  }

  /** A chunk that is held changes nothing but the held list and the matchers. */
  lemma RunAfterHold(t: Transformer, chunks: seq<Chunk>)
    requires Reachable(t) && t.detector.fileFormat.None? && chunks != []
    requires Detect(t.detector.matchers, chunks[0]).0 == Undetected(true)
    ensures var t' := Dispatch(t, chunks[0]).transformer;
            && Reachable(t') && t'.detector.fileFormat.None?
            && t'.detector.matchingChunks == t.detector.matchingChunks + [chunks[0]]
            && t'.detector.matchers == Detect(t.detector.matchers, chunks[0]).1
            && Run(t, chunks) == Run(t', chunks[1..])
  {
    UndetectedHolds(t, chunks[0]);
    assert Route(t, chunks[0]).redispatch.None?;
    DispatchReachable(t, chunks[0]);
    var o := Dispatch(t, chunks[0]);
    var rest := Run(o.transformer, chunks[1..]);
    assert Run(t, chunks) == Outcome(rest.transformer, o.emitted + rest.emitted, rest.thrown);
    assert o.emitted + rest.emitted == rest.emitted;
  }

  /** The stream never alters, splits, reorders or repeats chunks: what it enqueues is nothing,
      or the held chunks followed by the first `n` input chunks, whole. */
  lemma {:induction false} RunEmitsPrefix(t: Transformer, chunks: seq<Chunk>)
    requires Reachable(t) && t.detector.fileFormat.None?
    ensures var o := Run(t, chunks);
            || o.emitted == []
            || exists n :: 0 < n <= |chunks| &&
                 o.emitted == Enqueues(t.detector.matchingChunks + chunks[..n])
    decreases |chunks|
  {
    if chunks != [] {
      var det := Detect(t.detector.matchers, chunks[0]).0;
      if det.Detected? {
        RunAfterDetection(t, chunks);
      } else if det.anyMatching {
        RunAfterHold(t, chunks);
        var t' := Dispatch(t, chunks[0]).transformer;
        RunEmitsPrefix(t', chunks[1..]);
        var r := Run(t', chunks[1..]);
        if r.emitted != [] {
          var n :| 0 < n <= |chunks[1..]| && r.emitted == Enqueues(t'.detector.matchingChunks + chunks[1..][..n]);
          ShiftPrefix(t.detector.matchingChunks, chunks, n);
          assert t'.detector.matchingChunks + chunks[1..][..n] == t.detector.matchingChunks + chunks[..n + 1];
        }
      } else {
        UndetectedRejects(t, chunks[0]);
      }
    }
  }

  /** From a fresh transformer, what the stream enqueues is the first `n` input chunks, whole
      and in order, for some `n`. */
  lemma NewEmitsPrefix(chunks: seq<Chunk>)
    ensures exists n :: 0 <= n <= |chunks| && Run(New(), chunks).emitted == Enqueues(chunks[..n])
  {
    NewReachable();
    EmptyEmitsPrefix(New(), chunks);
  }

  /** `RunEmitsPrefix` from a reachable transformer that holds nothing and knows no format. */
  lemma EmptyEmitsPrefix(t: Transformer, chunks: seq<Chunk>)
    requires Reachable(t) && t.detector.fileFormat.None? && t.detector.matchingChunks == []
    ensures exists n :: 0 <= n <= |chunks| && Run(t, chunks).emitted == Enqueues(chunks[..n])
  {
    RunEmitsPrefix(t, chunks);
    var o := Run(t, chunks);
    if o.emitted == [] {
      assert o.emitted == Enqueues(chunks[..0]);
    } else {
      var n :| 0 < n <= |chunks| && o.emitted == Enqueues(t.detector.matchingChunks + chunks[..n]);
      assert t.detector.matchingChunks + chunks[..n] == chunks[..n];
    }
  }

  /** A chunk that is held and then one that completes a signature: both are emitted whole
      and in order, and any bytes after the signature are refused. */
  lemma HoldThenDetect(t: Transformer, c1: Chunk, c2: Chunk)
    requires Reachable(t) && t.detector.fileFormat.None? && t.detector.matchingChunks == []
    requires Detect(t.detector.matchers, c1).0 == Undetected(true)
    requires Detect(Detect(t.detector.matchers, c1).1, c2).0.Detected?
    ensures var det := Detect(Detect(t.detector.matchers, c1).1, c2).0;
            var o := Run(t, [c1, c2]);
            && o.emitted == Enqueues([c1, c2])
            && o.transformer.detector.fileFormat == Some(det.format)
            && (|det.remainingChunk| > 0 <==> o.thrown == Some(UnsupportedFileFormat))
            && (|det.remainingChunk| == 0 <==> o.thrown.None?)
  {
    var chunks := [c1, c2];
    RunAfterHold(t, chunks);
    var t' := Dispatch(t, c1).transformer;
    assert chunks[1..] == [c2] && [c1] + [c2] == chunks;
    RunOne(t', c2);
    DetectedThenRemainderRejected(t', c2);
  }

  /** A run of one chunk is that chunk's dispatch. */
  lemma RunOne(t: Transformer, chunk: Chunk)
    requires Valid(t)
    ensures Run(t, [chunk]) == Dispatch(t, chunk)
  {
    var o := Dispatch(t, chunk);
    assert [chunk][1..] == [];
    assert o.emitted + [] == o.emitted;
  }

  /** A PNG signature split anywhere across the first two chunks: the first is held, the
      second completes the signature, both are emitted whole and in order, and any bytes after
      the signature are refused as an unsupported file format. */
  lemma SplitSignatureRun(j: nat, rest: Chunk)
    requires 0 < j < |Markers.PngMarker|
    ensures var o := Run(New(), [Markers.PngMarker[..j], Markers.PngMarker[j..] + rest]);
            && o.emitted == Enqueues([Markers.PngMarker[..j], Markers.PngMarker[j..] + rest])
            && o.transformer.detector.fileFormat == Some(Png)
            && (|rest| > 0 <==> o.thrown == Some(UnsupportedFileFormat))
            && (|rest| == 0 <==> o.thrown.None?)
  {
    NewReachable();
    SplitSignatureDetected(j, rest);
    HoldThenDetect(New(), Markers.PngMarker[..j], Markers.PngMarker[j..] + rest);
  }
}

=== FILE: format_detection.dfy ===
/** File-format detection by signature, as both transformers do it: the chunk is fed to each
    format's matcher in turn, and the first one to report MATCHED decides the format. */
module FormatDetection {
  import opened Bytes
  import MarkerMatcher
  import Markers

  datatype Format = Png | WebP1 | WebP2 | JpegOrTiff

  /** The `Matcher` subclasses, which differ only in the marker they pass to `Matcher`. */
  datatype MatcherClass = PNGMatcher | WebP1Matcher | WebP2Matcher | App1MarkerMatcher

  /** The marker each subclass's constructor passes on. */
  function MarkerOf(c: MatcherClass): (marker: Chunk)
    ensures |marker| > 0
  {
    match c
    case PNGMatcher => Markers.PngMarker
    case WebP1Matcher => Markers.WebP1Marker
    case WebP2Matcher => Markers.WebP2Marker
    case App1MarkerMatcher => Markers.App1Marker
  }

  /** The `instanceof` chain: PNG, then WebP1, then WebP2, and any other matcher class is taken
      for JPEG/TIFF. */
  function FormatOf(c: MatcherClass): (f: Format)
    ensures f == JpegOrTiff <==> c == App1MarkerMatcher
  {
    match c
    case PNGMatcher => Png
    case WebP1Matcher => WebP1
    case WebP2Matcher => WebP2
    case _ => JpegOrTiff
  }

  /** A matcher object together with the class it was constructed as. */
  datatype ClassedMatcher = ClassedMatcher(cls: MatcherClass, matcher: MarkerMatcher.Matcher)

  predicate ValidMatchers(ms: seq<ClassedMatcher>) {
    forall k :: 0 <= k < |ms| ==> MarkerMatcher.Valid(ms[k].matcher)
  }

  /** `[new PNGMatcher(), new WebP1Matcher(), new WebP2Matcher()]`. */
  function InitialMatchers(): (ms: seq<ClassedMatcher>)
    ensures ValidMatchers(ms) && Detectors(ms)
    ensures forall k :: 0 <= k < |ms| ==> ms[k].matcher == MarkerMatcher.New(MarkerOf(ms[k].cls))
  {
    [ClassedMatcher(PNGMatcher, MarkerMatcher.New(Markers.PngMarker)),
     ClassedMatcher(WebP1Matcher, MarkerMatcher.New(Markers.WebP1Marker)),
     ClassedMatcher(WebP2Matcher, MarkerMatcher.New(Markers.WebP2Marker))]
  }

  /** The detector's list of matchers: PNG, WebP1, WebP2 in that order, and no other. */
  predicate Detectors(ms: seq<ClassedMatcher>) {
    && |ms| == 3
    && ms[0].cls == PNGMatcher && ms[1].cls == WebP1Matcher && ms[2].cls == WebP2Matcher
  }

  /** What one pass over the matchers found: a format and the bytes after its signature, or
      no format and whether any matcher is part-way through its signature. */
  datatype Detection = Detected(format: Format, remainingChunk: Chunk) | Undetected(anyMatching: bool)

  /** The `for (const matcher of this.matchers)` loop from index `i` on, with its `break` on the
      first MATCHED; `anyMatching` is the flag accumulated so far. */
  function FeedMatchers(ms: seq<ClassedMatcher>, chunk: Chunk, i: nat, anyMatching: bool)
    : (r: (Detection, seq<ClassedMatcher>))
    requires ValidMatchers(ms) && i <= |ms|
    ensures ValidMatchers(r.1) && |r.1| == |ms|
    ensures forall k :: 0 <= k < |ms| ==> r.1[k].cls == ms[k].cls
    decreases |ms| - i
  {
    if i == |ms| then (Undetected(anyMatching), ms)
    else
      var f := MarkerMatcher.Feed(ms[i].matcher, chunk);
      var ms' := ms[i := ClassedMatcher(ms[i].cls, f.1)];
      if f.0.Matched? then (Detected(FormatOf(ms[i].cls), f.0.remainingChunk), ms')
      else FeedMatchers(ms', chunk, i + 1, anyMatching || f.0.Matching?)
  }

  /** One detection pass over all matchers. */
  function Detect(ms: seq<ClassedMatcher>, chunk: Chunk): (r: (Detection, seq<ClassedMatcher>))
    requires ValidMatchers(ms)
    ensures ValidMatchers(r.1) && |r.1| == |ms|
    ensures forall k :: 0 <= k < |ms| ==> r.1[k].cls == ms[k].cls
  {
    FeedMatchers(ms, chunk, 0, false)
  }

  /** The reference for the loop: the index of the first matcher from `i` on that completes its
      signature on the chunk, or `|ms|` when none does. */
  function FirstMatch(ms: seq<ClassedMatcher>, chunk: Chunk, i: nat): (j: nat)
    requires ValidMatchers(ms) && i <= |ms|
    ensures i <= j <= |ms|
    ensures j < |ms| ==> MatchesAt(ms, chunk, j)
    ensures forall k :: i <= k < j ==> !MatchesAt(ms, chunk, k)
    decreases |ms| - i
  {
    if i == |ms| then |ms|
    else if MatchesAt(ms, chunk, i) then i
    else FirstMatch(ms, chunk, i + 1)
  }

  /** The matcher at `k` completes its signature on the chunk. */
  predicate MatchesAt(ms: seq<ClassedMatcher>, chunk: Chunk, k: nat)
    requires ValidMatchers(ms) && k < |ms|
  {
    MarkerMatcher.Feed(ms[k].matcher, chunk).0.Matched?
  }

  /** Some matcher from `i` on would report MATCHING on the chunk. */
  predicate SomeMatching(ms: seq<ClassedMatcher>, chunk: Chunk, i: nat)
    requires ValidMatchers(ms)
  {
    exists k :: i <= k < |ms| && MarkerMatcher.Feed(ms[k].matcher, chunk).0.Matching?
  }

  /** The loop does what the reference says: it detects the format of the first matcher that
      matches, with that matcher's remainder; with no match, `anyMatching` tells whether any
      matcher reported MATCHING. */
  lemma {:induction false} FeedMatchersFirstMatch(ms: seq<ClassedMatcher>, chunk: Chunk, i: nat, anyMatching: bool)
    requires ValidMatchers(ms) && i <= |ms|
    ensures var r := FeedMatchers(ms, chunk, i, anyMatching);
            var j := FirstMatch(ms, chunk, i);
            && (r.0.Detected? <==> j < |ms|)
            && (j < |ms| ==>
                  r.0 == Detected(FormatOf(ms[j].cls), MarkerMatcher.Feed(ms[j].matcher, chunk).0.remainingChunk))
            && (j == |ms| ==> r.0 == Undetected(anyMatching || SomeMatching(ms, chunk, i)))
    decreases |ms| - i
  {
    if i < |ms| {
      var f := MarkerMatcher.Feed(ms[i].matcher, chunk);
      var ms' := ms[i := ClassedMatcher(ms[i].cls, f.1)];
      if !f.0.Matched? {
        FeedMatchersUnfold(ms, chunk, i, anyMatching);
        FirstMatchFrame(ms, ms', chunk, i + 1);
        FeedMatchersFirstMatch(ms', chunk, i + 1, anyMatching || f.0.Matching?);
        SomeMatchingStep(ms, ms', chunk, i);
      }
    }
  }

  /** The loop never touches the matchers before the one it starts from. */
  lemma {:induction false} FeedMatchersKeepsEarlier(ms: seq<ClassedMatcher>, chunk: Chunk, i: nat, anyMatching: bool)
    requires ValidMatchers(ms) && i <= |ms|
    ensures var r := FeedMatchers(ms, chunk, i, anyMatching);
            forall k :: 0 <= k < i ==> r.1[k] == ms[k]
    decreases |ms| - i
  {
    if i < |ms| {
      var f := MarkerMatcher.Feed(ms[i].matcher, chunk);
      var ms' := ms[i := ClassedMatcher(ms[i].cls, f.1)];
      if !f.0.Matched? {
        FeedMatchersUnfold(ms, chunk, i, anyMatching);
        FeedMatchersKeepsEarlier(ms', chunk, i + 1, anyMatching || f.0.Matching?);
      }
    }
  }

  /** What the loop leaves in the matchers from the one it starts from up to and including the
      first match: each has been fed the chunk. */
  lemma {:induction false} FeedMatchersFed(ms: seq<ClassedMatcher>, chunk: Chunk, i: nat, anyMatching: bool)
    requires ValidMatchers(ms) && i <= |ms|
    ensures var r := FeedMatchers(ms, chunk, i, anyMatching);
            forall k :: i <= k < |ms| && k <= FirstMatch(ms, chunk, i) ==>
              r.1[k].matcher == MarkerMatcher.Feed(ms[k].matcher, chunk).1
    decreases |ms| - i
  {
    if i < |ms| {
      var f := MarkerMatcher.Feed(ms[i].matcher, chunk);
      var ms' := ms[i := ClassedMatcher(ms[i].cls, f.1)];
      if !f.0.Matched? {
        FeedMatchersUnfold(ms, chunk, i, anyMatching);
        FirstMatchFrame(ms, ms', chunk, i + 1);
        FeedMatchersKeepsEarlier(ms', chunk, i + 1, anyMatching || f.0.Matching?);
        FeedMatchersFed(ms', chunk, i + 1, anyMatching || f.0.Matching?);
      }
    }
  }

  /** The matchers after the first match never see the chunk: the loop has broken off. */
  lemma {:induction false} FeedMatchersLaterUnseen(ms: seq<ClassedMatcher>, chunk: Chunk, i: nat, anyMatching: bool)
    requires ValidMatchers(ms) && i <= |ms|
    ensures var r := FeedMatchers(ms, chunk, i, anyMatching);
            forall k :: FirstMatch(ms, chunk, i) < k < |ms| ==> r.1[k] == ms[k]
    decreases |ms| - i
  {
    if i < |ms| {
      var f := MarkerMatcher.Feed(ms[i].matcher, chunk);
      var ms' := ms[i := ClassedMatcher(ms[i].cls, f.1)];
      if !f.0.Matched? {
        FeedMatchersUnfold(ms, chunk, i, anyMatching);
        FirstMatchFrame(ms, ms', chunk, i + 1);
        FeedMatchersLaterUnseen(ms', chunk, i + 1, anyMatching || f.0.Matching?);
      }
    }
  }

  /** One turn of the loop on a matcher that does not match. */
  lemma FeedMatchersUnfold(ms: seq<ClassedMatcher>, chunk: Chunk, i: nat, anyMatching: bool)
    requires ValidMatchers(ms) && i < |ms|
    requires !MarkerMatcher.Feed(ms[i].matcher, chunk).0.Matched?
    ensures var f := MarkerMatcher.Feed(ms[i].matcher, chunk);
            FeedMatchers(ms, chunk, i, anyMatching) ==
              FeedMatchers(ms[i := ClassedMatcher(ms[i].cls, f.1)], chunk, i + 1, anyMatching || f.0.Matching?)
  {
  }

  /** MATCHING from `i` on is MATCHING at `i` or from `i + 1` on, whatever has been done to the
      matcher at `i` since. */
  lemma SomeMatchingStep(ms: seq<ClassedMatcher>, ms': seq<ClassedMatcher>, chunk: Chunk, i: nat)
    requires ValidMatchers(ms) && ValidMatchers(ms') && |ms| == |ms'| && i < |ms|
    requires forall k :: i < k < |ms| ==> ms[k] == ms'[k]
    ensures SomeMatching(ms, chunk, i) ==
              (MarkerMatcher.Feed(ms[i].matcher, chunk).0.Matching? || SomeMatching(ms', chunk, i + 1))
  {
    if SomeMatching(ms', chunk, i + 1) {
      var k :| i + 1 <= k < |ms'| && MarkerMatcher.Feed(ms'[k].matcher, chunk).0.Matching?;
      assert ms[k] == ms'[k];
    }
  }

  /** `FirstMatch` from `i` on reads only the matchers from `i` on. */
  lemma {:induction false} FirstMatchFrame(ms: seq<ClassedMatcher>, ms': seq<ClassedMatcher>, chunk: Chunk, i: nat)
    requires ValidMatchers(ms) && ValidMatchers(ms') && |ms| == |ms'| && i <= |ms|
    requires forall k :: i <= k < |ms| ==> ms[k] == ms'[k]
    ensures FirstMatch(ms, chunk, i) == FirstMatch(ms', chunk, i)
    decreases |ms| - i
  {
    if i < |ms| {
      FirstMatchFrame(ms, ms', chunk, i + 1);
    }
  }

  /** Detection through the three initial-class matchers never yields `jpegOrTiff`: there is no
      JPEG/TIFF matcher, so the last branch of the `instanceof` chain is dead. */
  lemma DetectsNoJpeg(ms: seq<ClassedMatcher>, chunk: Chunk)
    requires ValidMatchers(ms) && Detectors(ms)
    ensures Detect(ms, chunk).0.Detected? ==> Detect(ms, chunk).0.format != JpegOrTiff
  {
    FeedMatchersFirstMatch(ms, chunk, 0, false);
  }

  /** A matcher at rest stays at rest, reporting UNMATCHED, on a chunk none of whose bytes is
      its marker's first byte. */
  lemma {:induction false} FeedNoFirstByte(m: MarkerMatcher.Matcher, chunk: Chunk)
    requires MarkerMatcher.Valid(m) && m.matchingPointer == 0 && |m.marker| > 1
    requires forall k :: 0 <= k < |chunk| ==> chunk[k] != m.marker[0]
    ensures MarkerMatcher.Feed(m, chunk) == (MarkerMatcher.Unmatched, m)
    decreases |chunk|
  {
    if |chunk| > 0 {
      assert MarkerMatcher.Step(m, chunk[0]) == (false, m);
      FeedNoFirstByte(m, chunk[1..]);
    }
  }

  /** A pass in which the matcher at `i` reports UNMATCHED and stays as it was moves on to
      `i + 1` with the matchers unchanged. */
  lemma FeedMatchersSkip(ms: seq<ClassedMatcher>, chunk: Chunk, i: nat, anyMatching: bool)
    requires ValidMatchers(ms) && i < |ms|
    requires MarkerMatcher.Feed(ms[i].matcher, chunk) == (MarkerMatcher.Unmatched, ms[i].matcher)
    ensures FeedMatchers(ms, chunk, i, anyMatching) == FeedMatchers(ms, chunk, i + 1, anyMatching)
  {
    assert ms[i := ClassedMatcher(ms[i].cls, ms[i].matcher)] == ms;
  }

  /** A byte that starts neither WebP signature. */
  predicate NoWebPStart(b: Byte) {
    b != Markers.WebP1Marker[0] && b != Markers.WebP2Marker[0]
  }

  /** A byte that starts none of the three signatures. */
  predicate NoSignatureStart(b: Byte) {
    b != Markers.PngMarker[0] && NoWebPStart(b)
  }

  /** The two WebP matchers at rest, on a chunk in which neither signature starts: the pass
      goes through them reporting what it had, and leaves them as they were. */
  lemma WebPUnmatched(ms: seq<ClassedMatcher>, chunk: Chunk, anyMatching: bool)
    requires ValidMatchers(ms) && |ms| == 3
    requires ms[1].matcher == MarkerMatcher.New(Markers.WebP1Marker)
    requires ms[2].matcher == MarkerMatcher.New(Markers.WebP2Marker)
    requires forall k :: 0 <= k < |chunk| ==> NoWebPStart(chunk[k])
    ensures FeedMatchers(ms, chunk, 1, anyMatching) == (Undetected(anyMatching), ms)
  {
    FeedNoFirstByte(ms[1].matcher, chunk);
    FeedMatchersSkip(ms, chunk, 1, anyMatching);
    FeedNoFirstByte(ms[2].matcher, chunk);
    FeedMatchersSkip(ms, chunk, 2, anyMatching);
  }

  /** A chunk in which no signature even starts is refused by fresh matchers, which it leaves
      as they were. */
  lemma NoSignatureStartRejected(chunk: Chunk)
    requires forall k :: 0 <= k < |chunk| ==> NoSignatureStart(chunk[k])
    ensures Detect(InitialMatchers(), chunk) == (Undetected(false), InitialMatchers())
  {
    var ms := InitialMatchers();
    FeedNoFirstByte(ms[0].matcher, chunk);
    FeedMatchersSkip(ms, chunk, 0, false);
    WebPUnmatched(ms, chunk, false);
  }

  /** The detector's matchers with the PNG matcher `j` bytes into its signature. */
  function PngPart(j: nat): (ms: seq<ClassedMatcher>)
    requires j < |Markers.PngMarker|
    ensures ValidMatchers(ms) && Detectors(ms)
    ensures ms[1..] == InitialMatchers()[1..]
  {
    [ClassedMatcher(PNGMatcher, MarkerMatcher.Matcher(Markers.PngMarker, j))] + InitialMatchers()[1..]
  }

  /** No byte of the PNG signature starts a WebP signature. */
  lemma PngNoWebPStart(j: nat)
    requires j <= |Markers.PngMarker|
    ensures forall k :: 0 <= k < j ==> NoWebPStart(Markers.PngMarker[..j][k])
  {
    assert forall k :: 0 <= k < |Markers.PngMarker| ==> NoWebPStart(Markers.PngMarker[k]);
  }

  /** The first `j` bytes of the PNG signature: no format yet, and the PNG matcher `j` bytes in. */
  lemma PngHead(j: nat)
    requires 0 < j < |Markers.PngMarker|
    ensures Detect(InitialMatchers(), Markers.PngMarker[..j]) == (Undetected(true), PngPart(j))
  {
    var c := Markers.PngMarker[..j];
    var ms := InitialMatchers();
    MarkerMatcher.FeedMarkerPart(Markers.PngMarker, 0, j);
    assert Markers.PngMarker[0..j] == c;
    assert ms[0 := ClassedMatcher(PNGMatcher, MarkerMatcher.Matcher(Markers.PngMarker, j))] == PngPart(j);
    assert FeedMatchers(ms, c, 0, false) == FeedMatchers(PngPart(j), c, 1, true);
    PngNoWebPStart(j);
    WebPUnmatched(PngPart(j), c, true);
  }

  /** The rest of the PNG signature, after the first `j` bytes were seen: PNG is detected and
      whatever follows the signature is the remainder. */
  lemma PngTail(j: nat, rest: Chunk)
    requires j < |Markers.PngMarker|
    ensures Detect(PngPart(j), Markers.PngMarker[j..] + rest).0 == Detected(Png, rest)
  {
    MarkerMatcher.FeedMarkerRest(Markers.PngMarker, j, rest);
  }

  /** A PNG signature split anywhere across two chunks is detected on the second, because the
      matchers the first chunk left are stored for the next pass; the second chunk alone,
      through fresh matchers, is refused when no signature starts in what follows it. */
  lemma SplitSignatureDetected(j: nat, rest: Chunk)
    requires 0 < j < |Markers.PngMarker|
    ensures var first := Detect(InitialMatchers(), Markers.PngMarker[..j]);
            && first.0 == Undetected(true)
            && Detect(first.1, Markers.PngMarker[j..] + rest).0 == Detected(Png, rest)
    ensures (forall k :: 0 <= k < |rest| ==> NoSignatureStart(rest[k])) ==>
              Detect(InitialMatchers(), Markers.PngMarker[j..] + rest).0 == Undetected(false)
  {
    PngHead(j);
    PngTail(j, rest);
    if forall k :: 0 <= k < |rest| ==> NoSignatureStart(rest[k]) {
      PngTailAloneRejected(j, rest);
    }
  }

  /** Past its first byte, the PNG signature holds no byte that starts a signature. */
  lemma PngInnerBytes()
    ensures forall k :: 0 < k < |Markers.PngMarker| ==> NoSignatureStart(Markers.PngMarker[k])
  {
  }

  /** The tail of a split PNG signature, through fresh matchers, is refused. */
  lemma PngTailAloneRejected(j: nat, rest: Chunk)
    requires 0 < j < |Markers.PngMarker|
    requires forall k :: 0 <= k < |rest| ==> NoSignatureStart(rest[k])
    ensures Detect(InitialMatchers(), Markers.PngMarker[j..] + rest).0 == Undetected(false)
  {
    var c := Markers.PngMarker[j..] + rest;
    var n := |Markers.PngMarker| - j;
    PngInnerBytes();
    forall k | 0 <= k < |c| ensures NoSignatureStart(c[k]) {
      if k < n {
        assert c[k] == Markers.PngMarker[j + k];
      } else {
        assert c[k] == rest[k - n];
      }
    }
    NoSignatureStartRejected(c);
  }
}

=== FILE: markers.dfy ===
/** The marker byte literals of the repository's constants module. */
module Markers {
  import opened Bytes

  /** JPEG APP1 segment marker `FF E1`. */
  const App1Marker: Chunk := [0xFF, 0xE1]

  /** PNG file signature `89 50 4E 47 0D 0A 1A 0A`. */
  const PngMarker: Chunk := [0x89, 0x50, 0x4E, 0x47, 0x0D, 0x0A, 0x1A, 0x0A]

  /** WebP RIFF header `52 49 46 46` ("RIFF"). */
  const WebP1Marker: Chunk := [0x52, 0x49, 0x46, 0x46]

  /** WebP payload tag `57 45 42 50` ("WEBP"). */
  const WebP2Marker: Chunk := [0x57, 0x45, 0x42, 0x50]
}

=== FILE: matcher.dfy ===
/** The naive incremental marker automaton (`Matcher`): a match pointer into the marker that
    persists across chunks, advanced on every byte equal to the marker byte it points at and
    dropped back to 0 on any other byte. */
module MarkerMatcher {
  import opened Bytes
  import Markers

  datatype FeedResult = Matching | Matched(remainingChunk: Chunk) | Unmatched

  /** A `Matcher` instance: the marker it looks for and the match pointer. `Matcher.feed` also
      copies every accepted byte into a `pending` buffer that nothing reads; it is not modelled. */
  datatype Matcher = Matcher(marker: Chunk, matchingPointer: nat)

  /** The marker bytes matched so far. */
  function MatchedPrefix(m: Matcher): Chunk
    requires m.matchingPointer <= |m.marker|
  {
    m.marker[..m.matchingPointer]
  }

  /** What holds of a matcher between two calls of `feed`: the pointer is 0 or strictly inside
      the marker. */
  predicate Valid(m: Matcher) {
    m.matchingPointer == 0 || m.matchingPointer < |m.marker|
  }

  /** The constructor: pointer 0. */
  function New(marker: Chunk): (m: Matcher)
    ensures Valid(m) && m.marker == marker && m.matchingPointer == 0
  {
    Matcher(marker, 0)
  }

  /** `reset()`: afterwards the matcher cannot be told apart from a freshly constructed one
      for the same marker. */
  function Reset(m: Matcher): (m': Matcher)
    ensures m' == New(m.marker)
  {
    m.(matchingPointer := 0)
  }

  /** The marker byte under the pointer equals `b`; past the end of the marker (an empty
      marker) there is no byte to compare, and nothing is equal to it. */
  predicate Accepts(m: Matcher, b: Byte) {
    m.matchingPointer < |m.marker| && m.marker[m.matchingPointer] == b
  }

  /** The matcher after `b` was accepted: `pointer++`. */
  function Advance(m: Matcher, b: Byte): (m': Matcher)
    requires Valid(m) && Accepts(m, b)
    ensures m'.marker == m.marker && m'.matchingPointer == m.matchingPointer + 1
    ensures MatchedPrefix(m') == MatchedPrefix(m) + [b]
    ensures m'.matchingPointer < |m'.marker| ==> Valid(m')
  {
    var m' := m.(matchingPointer := m.matchingPointer + 1);
    assert MatchedPrefix(m') == MatchedPrefix(m) + [m.marker[m.matchingPointer]];
    m'
  }

  /** One iteration of the loop of `feed` on byte `b`: whether `b` completed the marker, and
      the matcher after it. A mismatching byte drops a partial match and is not compared with
      `marker[0]` again. */
  function Step(m: Matcher, b: Byte): (r: (bool, Matcher))
    requires Valid(m)
    ensures Valid(r.1) && r.1.marker == m.marker
    ensures r.0 ==> r.1.matchingPointer == 0 && MatchedPrefix(m) + [b] == m.marker
    ensures !r.0 ==> EndsWith(MatchedPrefix(m) + [b], MatchedPrefix(r.1))
  {
    if !Accepts(m, b) then
      (false, if m.matchingPointer > 0 then Reset(m) else m)
    else
      var m' := Advance(m, b);
      if m'.matchingPointer == |m.marker| then (true, Reset(m')) else (false, m')
  }

  /** The result reported when the chunk is used up without a match. */
  function Exhausted(m: Matcher): FeedResult {
    if m.matchingPointer > 0 then Matching else Unmatched
  }

  /** `Matcher.feed(chunk)`: its loop over the index `i` is a recursion on the suffix
      `chunk[i..]`. */
  function Feed(m: Matcher, chunk: Chunk): (r: (FeedResult, Matcher))
    requires Valid(m)
    ensures Valid(r.1) && r.1.marker == m.marker
    // a match resets the pointer and hands back fewer bytes than it was fed
    ensures r.0.Matched? ==>
              && r.1.matchingPointer == 0
              && |r.0.remainingChunk| < |chunk|
    // a chunk used up without a match: MATCHING iff a partial match is pending
    ensures r.0.Matching? <==> !r.0.Matched? && r.1.matchingPointer > 0
    ensures r.0.Unmatched? <==> !r.0.Matched? && r.1.matchingPointer == 0
    decreases |chunk|
  {
    if |chunk| == 0 then (Exhausted(m), m)
    else
      var s := Step(m, chunk[0]);
      if s.0 then (Matched(chunk[1..]), s.1) else Feed(s.1, chunk[1..])
  }

  /** On a match, `remainingChunk` is exactly the suffix of the chunk after the byte that
      completed the marker. */
  lemma {:induction false} FeedRemainder(m: Matcher, chunk: Chunk)
    requires Valid(m) && Feed(m, chunk).0.Matched?
    ensures var rest := Feed(m, chunk).0.remainingChunk;
            rest == chunk[|chunk| - |rest|..]
    decreases |chunk|
  {
    assert |chunk| > 0;
    var s := Step(m, chunk[0]);
    if s.0 {
      assert Feed(m, chunk).0.remainingChunk == chunk[1..];
    } else {
      assert Feed(m, chunk) == Feed(s.1, chunk[1..]);
      FeedRemainder(s.1, chunk[1..]);
      var rest := Feed(m, chunk).0.remainingChunk;
      assert chunk[1..][|chunk[1..]| - |rest|..] == chunk[|chunk| - |rest|..];
    }
  }

  /** The `for` loop of `feed` as written, with its early `return` on a completed match; it
      computes exactly `Feed`. */
  method FeedLoop(m: Matcher, chunk: Chunk) returns (result: FeedResult, m': Matcher)
    requires Valid(m)
    ensures (result, m') == Feed(m, chunk)
  {
    m' := m;
    var i := 0;
    while i < |chunk|
      invariant 0 <= i <= |chunk|
      invariant Valid(m') && m'.marker == m.marker
      invariant Feed(m', chunk[i..]) == Feed(m, chunk)
    {
      var currentChunkByte := chunk[i];
      assert chunk[i..][0] == currentChunkByte && chunk[i..][1..] == chunk[i + 1..];
      if !Accepts(m', currentChunkByte) {
        if m'.matchingPointer > 0 {
          m' := Reset(m');
        }
        i := i + 1;
        continue;
      }
      m' := Advance(m', currentChunkByte);
      if m'.matchingPointer == |m'.marker| {
        m' := Reset(m');
        result := Matched(chunk[i + 1..]);
        return;
      }
      i := i + 1;
    }
    assert chunk[i..] == [];
    if m'.matchingPointer > 0 {
      result := Matching;
    } else {
      result := Unmatched;
    }
  }

  /** Feeding an empty chunk reports the state it is in and changes nothing. */
  lemma FeedEmpty(m: Matcher)
    requires Valid(m)
    ensures Feed(m, []) == (if m.matchingPointer > 0 then Matching else Unmatched, m)
  {
  }

  /** Chunk-split invariance: when `a` completes no match, feeding `a` and then `b` ends in the
      same result and the same state as feeding `a + b` in one go. */
  lemma {:induction false} FeedSplit(m: Matcher, a: Chunk, b: Chunk)
    requires Valid(m) && !Feed(m, a).0.Matched?
    ensures Feed(Feed(m, a).1, b) == Feed(m, a + b)
    decreases |a|
  {
    if |a| == 0 {
      assert a + b == b;
    } else {
      assert (a + b)[0] == a[0] && (a + b)[1..] == a[1..] + b;
      FeedSplit(Step(m, a[0]).1, a[1..], b);
    }
  }

  /** When `a` completes a match, appending `b` to `a` only lengthens the remainder. */
  lemma {:induction false} FeedSplitMatched(m: Matcher, a: Chunk, b: Chunk)
    requires Valid(m) && Feed(m, a).0.Matched?
    ensures Feed(m, a + b) == (Matched(Feed(m, a).0.remainingChunk + b), Feed(m, a).1)
    decreases |a|
  {
    assert (a + b)[0] == a[0] && (a + b)[1..] == a[1..] + b;
    if !Step(m, a[0]).0 {
      FeedSplitMatched(Step(m, a[0]).1, a[1..], b);
    }
  }

  /** Completeness, part way: a matcher at pointer `i` fed the marker bytes `i` up to `j`
      (short of the whole marker) reports MATCHING with its pointer at `j`. */
  lemma {:induction false} FeedMarkerPart(marker: Chunk, i: nat, j: nat)
    requires i <= j && 0 < j < |marker|
    ensures Feed(Matcher(marker, i), marker[i..j]) == (Matching, Matcher(marker, j))
    decreases j - i
  {
    if i < j {
      var m := Matcher(marker, i);
      assert Step(m, marker[i]) == (false, Matcher(marker, i + 1));
      assert marker[i..j][1..] == marker[i + 1..j];
      FeedMarkerPart(marker, i + 1, j);
    }
  }

  /** Completeness, to the end: a matcher at pointer `i` fed the rest of the marker and then
      any bytes reports MATCHED with exactly those bytes left, and is reset. */
  lemma {:induction false} FeedMarkerRest(marker: Chunk, i: nat, rest: Chunk)
    requires i < |marker|
    ensures Feed(Matcher(marker, i), marker[i..] + rest) == (Matched(rest), Matcher(marker, 0))
    decreases |marker| - i
  {
    var m := Matcher(marker, i);
    var chunk := marker[i..] + rest;
    assert chunk[0] == marker[i];
    if i + 1 == |marker| {
      assert Step(m, marker[i]) == (true, Matcher(marker, 0));
      assert chunk[1..] == rest;
    } else {
      assert Step(m, marker[i]) == (false, Matcher(marker, i + 1));
      assert chunk[1..] == marker[i + 1..] + rest;
      FeedMarkerRest(marker, i + 1, rest);
    }
  }

  /** One byte keeps the history consistent: if `history` ends with the partial match of `m`,
      then after `b` either the marker was completed and `history + [b]` ends with it, or it ends
      with the new partial match. */
  lemma StepSound(m: Matcher, history: Chunk, b: Byte)
    requires Valid(m) && EndsWith(history, MatchedPrefix(m))
    ensures Step(m, b).0 ==> EndsWith(history + [b], m.marker)
    ensures !Step(m, b).0 ==> EndsWith(history + [b], MatchedPrefix(Step(m, b).1))
  {
    EndsWithSnoc(history, MatchedPrefix(m), b);
    if !Step(m, b).0 {
      EndsWithTrans(history + [b], MatchedPrefix(m) + [b], MatchedPrefix(Step(m, b).1));
    }
  }

  /** No false positive, against the whole history since the last reset: if `history` ends with
      the partial match of `m` and the chunk completes a match, the history followed by the bytes
      consumed now ends with the marker, possibly spanning earlier chunks. */
  lemma {:induction false} FeedSoundMatched(m: Matcher, history: Chunk, chunk: Chunk)
    requires Valid(m) && EndsWith(history, MatchedPrefix(m)) && Feed(m, chunk).0.Matched?
    ensures EndsWith(history + chunk[..|chunk| - |Feed(m, chunk).0.remainingChunk|], m.marker)
    decreases |chunk|
  {
    assert |chunk| > 0;
    var s := Step(m, chunk[0]);
    StepSound(m, history, chunk[0]);
    var rest := Feed(m, chunk).0.remainingChunk;
    if s.0 {
      assert rest == chunk[1..];
      ShiftPrefix(history, chunk, 0);
      assert |chunk| - |rest| == 1;
    } else {
      assert Feed(m, chunk) == Feed(s.1, chunk[1..]);
      FeedSoundMatched(s.1, history + [chunk[0]], chunk[1..]);
      var k := |chunk[1..]| - |rest|;
      ShiftPrefix(history, chunk, k);
      assert |chunk| - |rest| == k + 1;
    }
  }

  /** The partial match is always a suffix of the history: if `history` ends with the partial
      match of `m` and the chunk completes no match, the history followed by the chunk ends
      with the new partial match. */
  lemma {:induction false} FeedSoundPending(m: Matcher, history: Chunk, chunk: Chunk)
    requires Valid(m) && EndsWith(history, MatchedPrefix(m)) && !Feed(m, chunk).0.Matched?
    ensures EndsWith(history + chunk, MatchedPrefix(Feed(m, chunk).1))
    decreases |chunk|
  {
    if |chunk| == 0 {
      assert history + chunk == history;
    } else {
      var s := Step(m, chunk[0]);
      StepSound(m, history, chunk[0]);
      assert Feed(m, chunk) == Feed(s.1, chunk[1..]);
      FeedSoundPending(s.1, history + [chunk[0]], chunk[1..]);
      Shift(history, chunk);
    }
  }

  /** A byte that breaks a partial match leaves the matcher reset even when that byte is the
      first byte of the marker: it is not tested as the start of a new match. */
  lemma BreakingByteNotRetested(m: Matcher, b: Byte)
    requires Valid(m) && 0 < m.matchingPointer && m.marker[m.matchingPointer] != b
    ensures Feed(m, [b]) == (Unmatched, Reset(m))
  {
  }

  /** `FF FF E1` holds `FF E1`, yet the APP1 matcher reports no match for it. */
  lemma MissedOverlappingMatch()
    ensures Feed(New(Markers.App1Marker), [0xFF, 0xFF, 0xE1]).0 == Unmatched
  {
    MissedOverlapping(New(Markers.App1Marker), [0xFF, 0xFF, 0xE1]);
  }

  lemma MissedOverlapping(m0: Matcher, c: Chunk)
    requires m0 == Matcher([0xFF, 0xE1], 0) && c == [0xFF, 0xFF, 0xE1]
    ensures Feed(m0, c).0 == Unmatched
  {
    var m1 := Matcher([0xFF, 0xE1], 1);
    assert Step(m0, c[0]) == (false, m1);
    assert Feed(m0, c) == Feed(m1, c[1..]);
    assert Step(m1, c[1]) == (false, m0);
    assert c[1..][1..] == c[2..];
    assert Feed(m1, c[1..]) == Feed(m0, c[2..]);
    assert Step(m0, c[2]) == (false, m0);
    assert c[2..][1..] == c[3..] == [];
    assert Feed(m0, c[2..]) == Feed(m0, []);
  }
}

=== FILE: old2_exif_transformer.dfy ===
/** The legacy pipeline of `Old2ExifTransformer.ts`: a transform stream that detects the file
    format itself, without re-entry, and a two-state APP1 handler that passes chunks through
    until the APP1 marker and drops everything from the chunk holding it on. */
module Old2ExifTransformer {
  import opened Bytes
  import MarkerMatcher
  import Markers
  import opened FormatDetection

  datatype App1State = WaitingForApp1Marker | App1MarkerFound

  /** The legacy `JPEGOrTIFFGPSRemovingTransformHandler`: its state, its APP1 matcher and the
      chunks it holds. It overrides `transform` without the base class's guard, so its root
      transform is never consulted and is not modelled. */
  datatype App1Handler = App1Handler(state: App1State, app1MarkerMatcher: MarkerMatcher.Matcher, matchingChunks: seq<Chunk>)

  predicate App1Valid(h: App1Handler) {
    MarkerMatcher.Valid(h.app1MarkerMatcher)
  }

  /** The constructor: waiting, a fresh APP1 matcher, nothing held. */
  function NewApp1Handler(): (h: App1Handler)
    ensures App1Valid(h) && h.state == WaitingForApp1Marker && h.matchingChunks == []
    ensures h.app1MarkerMatcher == MarkerMatcher.New([0xFF, 0xE1])
  {
    App1Handler(WaitingForApp1Marker, MarkerMatcher.New(Markers.App1Marker), [])
  }

  /** `transform(chunk)` of the APP1 handler: the handler afterwards and the chunks it enqueued. */
  function App1Transform(h: App1Handler, chunk: Chunk): (r: (App1Handler, seq<Chunk>))
    requires App1Valid(h)
    ensures App1Valid(r.0) && r.0.app1MarkerMatcher.marker == h.app1MarkerMatcher.marker
    // once the marker is found every chunk is dropped and nothing changes
    ensures h.state == App1MarkerFound ==> r == (h, [])
    // while waiting, no chunk is lost or invented: what is enqueued now and what is held
    // afterwards are, in order, what was held before and the chunk
    ensures h.state == WaitingForApp1Marker ==> r.1 + r.0.matchingChunks == h.matchingChunks + [chunk]
    // the state moves to "found" exactly on a MATCHED, and then nothing is enqueued
    ensures h.state == WaitingForApp1Marker ==>
              (r.0.state == App1MarkerFound <==> MarkerMatcher.Feed(h.app1MarkerMatcher, chunk).0.Matched?)
    ensures r.0.state == App1MarkerFound ==> r.1 == []
    // while waiting, something is enqueued only on UNMATCHED, and then nothing stays held
    ensures h.state == WaitingForApp1Marker && r.1 != [] ==>
              MarkerMatcher.Feed(h.app1MarkerMatcher, chunk).0.Unmatched? && r.0.matchingChunks == []
    // UNMATCHED flushes: everything held, then the chunk, is enqueued and nothing stays held
    ensures h.state == WaitingForApp1Marker && MarkerMatcher.Feed(h.app1MarkerMatcher, chunk).0.Unmatched? ==>
              r.1 == h.matchingChunks + [chunk] && r.0.matchingChunks == []
    // while waiting, the handler keeps the matcher as the chunk left it
    ensures h.state == WaitingForApp1Marker ==> r.0.app1MarkerMatcher == MarkerMatcher.Feed(h.app1MarkerMatcher, chunk).1
  {
    match h.state
    case App1MarkerFound => (h, [])
    case WaitingForApp1Marker =>
      var f := MarkerMatcher.Feed(h.app1MarkerMatcher, chunk);
      var h' := h.(app1MarkerMatcher := f.1);
      match f.0
      case Unmatched => (h'.(matchingChunks := []), h.matchingChunks + [chunk])
      case Matched(_) => (h'.(state := App1MarkerFound, matchingChunks := h.matchingChunks + [chunk]), [])
      case Matching => (h'.(matchingChunks := h.matchingChunks + [chunk]), [])
  }

  /** The APP1 handler given chunk after chunk: the handler afterwards and everything enqueued. */
  function App1Run(h: App1Handler, chunks: seq<Chunk>): (r: (App1Handler, seq<Chunk>))
    requires App1Valid(h)
    ensures App1Valid(r.0)
    decreases |chunks|
  {
    if chunks == [] then (h, [])
    else
      var first := App1Transform(h, chunks[0]);
      var rest := App1Run(first.0, chunks[1..]);
      (rest.0, first.1 + rest.1)
  }

  /** "Found" is never left: from then on every chunk is dropped. */
  lemma {:induction false} App1FoundDropsAll(h: App1Handler, chunks: seq<Chunk>)
    requires App1Valid(h) && h.state == App1MarkerFound
    ensures App1Run(h, chunks) == (h, [])
    decreases |chunks|
  {
    if chunks != [] {
      assert App1Transform(h, chunks[0]) == (h, []);
      App1FoundDropsAll(h, chunks[1..]);
      assert [] + App1Run(h, chunks[1..]).1 == [];
    }
  }

  /** While the APP1 handler is still waiting, no chunk is lost or invented: the enqueued chunks
      followed by the held ones are, in order, what it held and was given. */
  lemma {:induction false} App1RunConserves(h: App1Handler, chunks: seq<Chunk>)
    requires App1Valid(h) && h.state == WaitingForApp1Marker
    ensures var r := App1Run(h, chunks);
            r.0.state == WaitingForApp1Marker ==> r.1 + r.0.matchingChunks == h.matchingChunks + chunks
    decreases |chunks|
  {
    if chunks == [] {
      assert h.matchingChunks + chunks == h.matchingChunks;
    } else {
      var first := App1Transform(h, chunks[0]);
      var rest := App1Run(first.0, chunks[1..]);
      App1RunStep(h, chunks);
      if first.0.state == App1MarkerFound {
        App1FoundDropsAll(first.0, chunks[1..]);
      } else {
        App1RunConserves(first.0, chunks[1..]);
        assert chunks == [chunks[0]] + chunks[1..];
        if rest.0.state == WaitingForApp1Marker {
          Regroup(first.1, first.0.matchingChunks, rest.1, rest.0.matchingChunks,
                  h.matchingChunks, [chunks[0]], chunks[1..]);
        }
      }
    }
  }

  /** What the APP1 handler enqueues is an in-order prefix of what it held and was given: no
      chunk is altered, reordered or enqueued twice. */
  lemma {:induction false} App1RunPrefix(h: App1Handler, chunks: seq<Chunk>)
    requires App1Valid(h) && h.state == WaitingForApp1Marker
    ensures App1Run(h, chunks).1 <= h.matchingChunks + chunks
    decreases |chunks|
  {
    if chunks == [] {
      assert h.matchingChunks + chunks == h.matchingChunks;
    } else {
      var first := App1Transform(h, chunks[0]);
      var rest := App1Run(first.0, chunks[1..]);
      App1RunStep(h, chunks);
      if first.0.state == App1MarkerFound {
        App1FoundDropsAll(first.0, chunks[1..]);
        assert App1Run(h, chunks).1 == [];
      } else {
        App1RunPrefix(first.0, chunks[1..]);
        assert chunks == [chunks[0]] + chunks[1..];
        RegroupPrefix(first.1, first.0.matchingChunks, rest.1, h.matchingChunks, [chunks[0]], chunks[1..]);
      }
    }
  }

  /** One turn of `App1Run`. */
  lemma App1RunStep(h: App1Handler, chunks: seq<Chunk>)
    requires App1Valid(h) && chunks != []
    ensures var first := App1Transform(h, chunks[0]);
            var rest := App1Run(first.0, chunks[1..]);
            App1Run(h, chunks) == (rest.0, first.1 + rest.1)
  {
  }

  /** Two steps that each enqueue some chunks and hold the rest, joined: `e1`/`m1` enqueued and
      held after being given `c` on top of `m0`, then `e2`/`m2` after `tail` on top of `m1`. */
  lemma Regroup<T>(e1: seq<T>, m1: seq<T>, e2: seq<T>, m2: seq<T>, m0: seq<T>, c: seq<T>, tail: seq<T>)
    requires e1 + m1 == m0 + c
    requires e2 + m2 == m1 + tail
    ensures (e1 + e2) + m2 == m0 + (c + tail)
  {
    calc {
      (e1 + e2) + m2;
    ==
      e1 + (m1 + tail);
    ==
      (m0 + c) + tail;
    }
  }

  /** As `Regroup`, when the second step's enqueued chunks are only known to be a prefix. */
  lemma RegroupPrefix<T>(e1: seq<T>, m1: seq<T>, e2: seq<T>, m0: seq<T>, c: seq<T>, tail: seq<T>)
    requires e1 + m1 == m0 + c
    requires e2 <= m1 + tail
    ensures e1 + e2 <= m0 + (c + tail)
  {
    calc {
      e1 + (m1 + tail);
    ==
      (e1 + m1) + tail;
    ==
      (m0 + c) + tail;
    }
    assert (e1 + (m1 + tail))[..|e1 + e2|] == e1 + e2;
  }

  /** `GPSRemovalTransformer`: the chunks held during detection, the signature matchers, the
      detected format and the APP1 handler. */
  datatype Legacy = Legacy(
    matchingChunks: seq<Chunk>,
    matchers: seq<ClassedMatcher>,
    fileFormat: Option<Format>,
    app1: App1Handler)

  /** What the stream did with some input: its state afterwards, the chunks it enqueued, and the
      error that errored it, if any. */
  datatype LegacyOutcome = LegacyOutcome(legacy: Legacy, emitted: seq<Chunk>, thrown: Option<Error>)

  predicate LegacyValid(t: Legacy) {
    ValidMatchers(t.matchers) && App1Valid(t.app1)
  }

  /** `new ExifTransformer()` of the legacy pipeline. */
  function NewLegacy(): (t: Legacy)
    ensures LegacyValid(t) && Detectors(t.matchers) && t.fileFormat.None? && t.matchingChunks == []
    ensures t.app1 == NewApp1Handler()
  {
    Legacy([], InitialMatchers(), None, NewApp1Handler())
  }

  /** The stream's `transform` closure on one chunk: `getSubTransformer()` once a format is known
      (the APP1 handler for `jpegOrTiff`, "Unsupported file format" otherwise), detection
      before. A detection enqueues the held chunks and the chunk, and the bytes after the
      signature are never looked at again. */
  function LegacyTransform(t: Legacy, chunk: Chunk): (r: LegacyOutcome)
    requires LegacyValid(t)
    ensures LegacyValid(r.legacy)
    ensures |r.legacy.matchers| == |t.matchers|
    ensures forall k :: 0 <= k < |t.matchers| ==> r.legacy.matchers[k].cls == t.matchers[k].cls
    ensures t.fileFormat.Some? && t.fileFormat.value != JpegOrTiff ==>
              r == LegacyOutcome(t, [], Some(UnsupportedFileFormat))
    // `jpegOrTiff`: every chunk goes to the APP1 handler, which never throws
    ensures t.fileFormat == Some(JpegOrTiff) ==>
              var a := App1Transform(t.app1, chunk);
              r == LegacyOutcome(t.(app1 := a.0), a.1, None)
    // detection never hands anything to the APP1 handler
    ensures t.fileFormat.None? ==> r.legacy.app1 == t.app1
    // before a format is known, the matchers are stored as the chunk left them
    ensures t.fileFormat.None? ==> r.legacy.matchers == Detect(t.matchers, chunk).1
    ensures t.fileFormat.None? && Detect(t.matchers, chunk).0.Detected? ==>
              && r.emitted == t.matchingChunks + [chunk] && r.thrown.None?
              && r.legacy.matchingChunks == []
              && r.legacy.fileFormat == Some(Detect(t.matchers, chunk).0.format)
    ensures t.fileFormat.None? && Detect(t.matchers, chunk).0 == Undetected(true) ==>
              && r.emitted == [] && r.thrown.None?
              && r.legacy.matchingChunks == t.matchingChunks + [chunk] && r.legacy.fileFormat.None?
    ensures t.fileFormat.None? && Detect(t.matchers, chunk).0 == Undetected(false) ==>
              r.emitted == [] && r.thrown == Some(UnsupportedImageFormat)
  {
    if t.fileFormat.Some? then
      if t.fileFormat.value == JpegOrTiff then
        var a := App1Transform(t.app1, chunk);
        LegacyOutcome(t.(app1 := a.0), a.1, None)
      else
        LegacyOutcome(t, [], Some(UnsupportedFileFormat))
    else
      var det := Detect(t.matchers, chunk);
      var t' := t.(matchers := det.1);
      match det.0
      case Detected(format, _) =>
        LegacyOutcome(t'.(matchingChunks := [], fileFormat := Some(format)), t.matchingChunks + [chunk], None)
      case Undetected(anyMatching) =>
        if anyMatching then LegacyOutcome(t'.(matchingChunks := t.matchingChunks + [chunk]), [], None)
        else LegacyOutcome(t', [], Some(UnsupportedImageFormat))
  }

  /** The legacy stream fed chunk after chunk, stopping at the first error. */
  function LegacyRun(t: Legacy, chunks: seq<Chunk>): (o: LegacyOutcome)
    requires LegacyValid(t)
    ensures LegacyValid(o.legacy)
    decreases |chunks|
  {
    if chunks == [] then LegacyOutcome(t, [], None)
    else
      var o := LegacyTransform(t, chunks[0]);
      if o.thrown.Some? then o
      else
        var rest := LegacyRun(o.legacy, chunks[1..]);
        LegacyOutcome(rest.legacy, o.emitted + rest.emitted, rest.thrown)
  }

  /** The states reachable from `NewLegacy()`: the APP1 handler untouched, the three signature
      matchers, never a `jpegOrTiff` format, and nothing held once a format is known. */
  predicate LegacyReachable(t: Legacy) {
    && LegacyValid(t)
    && t.app1 == NewApp1Handler()
    && Detectors(t.matchers)
    && t.fileFormat != Some(JpegOrTiff)
    && (t.fileFormat.Some? ==> t.matchingChunks == [])
  }

  /** One chunk keeps the legacy stream among its reachable states. */
  lemma LegacyTransformReachable(t: Legacy, chunk: Chunk)
    requires LegacyReachable(t)
    ensures LegacyReachable(LegacyTransform(t, chunk).legacy)
  {
    if t.fileFormat.None? {
      DetectsNoJpeg(t.matchers, chunk);
    }
  }

  /** The stream keeps to its reachable states; in particular the APP1 handler is never
      reached, since no detected format is `jpegOrTiff`. */
  lemma {:induction false} LegacyRunReachable(t: Legacy, chunks: seq<Chunk>)
    requires LegacyReachable(t)
    ensures LegacyReachable(LegacyRun(t, chunks).legacy)
    decreases |chunks|
  {
    if chunks != [] {
      LegacyTransformReachable(t, chunks[0]);
      var o := LegacyTransform(t, chunks[0]);
      if o.thrown.None? {
        LegacyRunReachable(o.legacy, chunks[1..]);
      }
    }
  }

  /** From a fresh legacy stream the APP1 handler ends every input in its initial state. */
  lemma LegacyApp1Unreachable(chunks: seq<Chunk>)
    ensures LegacyRun(NewLegacy(), chunks).legacy.app1 == NewApp1Handler()
    ensures LegacyRun(NewLegacy(), chunks).legacy.fileFormat != Some(JpegOrTiff)
  {
    LegacyRunReachable(NewLegacy(), chunks);
  }

  /** What the legacy stream enqueues is an in-order prefix of what it held and was given. */
  lemma {:induction false} LegacyRunPrefix(t: Legacy, chunks: seq<Chunk>)
    requires LegacyReachable(t)
    ensures LegacyRun(t, chunks).emitted <= t.matchingChunks + chunks
    decreases |chunks|
  {
    if chunks != [] {
      LegacyTransformReachable(t, chunks[0]);
      var o := LegacyTransform(t, chunks[0]);
      Shift(t.matchingChunks, chunks);
      if o.thrown.None? {
        var rest := LegacyRun(o.legacy, chunks[1..]);
        if t.fileFormat.Some? {
          assert false;
        } else if Detect(t.matchers, chunks[0]).0.Detected? {
          if chunks[1..] != [] {
            assert LegacyTransform(o.legacy, chunks[1..][0]).thrown == Some(UnsupportedFileFormat);
          }
          assert rest.emitted == [];
        } else {
          LegacyRunPrefix(o.legacy, chunks[1..]);
          assert o.emitted == [];
        }
      }
    }
  }
}

=== FILE: scanner.dfy ===
/** `Scanner`: a handler that walks an ordered list of specs, each either a marker to wait for or
    a number of bytes to take, calls the `on<Name>` callback of the spec it satisfies, and hands
    the leftover of the chunk back to the root transform. */
module Scanning {
  import opened Bytes
  import MarkerMatcher
  import opened TransformHandlers

  /** A spec's byte count. Only positive counts are modelled. A count of 0 hands the whole
      chunk back to the root. A count of -k hands back the last k bytes (the whole chunk when k
      is at least its length), and the next call hands all of those k bytes back again. Either
      way the re-entry never ends. */
  type Count = n: int | n > 0 witness 1

  /** `{ name, matcher }` or `{ name, numOfBytes }`. A spec's matcher is an object the scanner
      feeds, so its match pointer is part of the scanner's state. */
  datatype Spec =
    | MatcherSpec(name: string, matcher: MarkerMatcher.Matcher)
    | BytesSpec(name: string, numOfBytes: Count)

  /** A scanner: its handler base, its specs, the index of the current spec, and the names of
      the `on<Name>` methods its subclass defines. */
  datatype Scanner = Scanner(handler: Handler, specs: seq<Spec>, specIndex: nat, callbacks: set<string>)

  /** Every matcher of the specs is between two calls of `feed`. */
  predicate Valid(sc: Scanner) {
    forall i :: 0 <= i < |sc.specs| ==>
      (sc.specs[i].MatcherSpec? ==> MarkerMatcher.Valid(sc.specs[i].matcher))
  }

  /** The constructor: `specIndex = 0`. */
  function New(handler: Handler, specs: seq<Spec>, callbacks: set<string>): (sc: Scanner)
    ensures sc.specIndex == 0 && sc.specs == specs && sc.handler == handler && sc.callbacks == callbacks
  {
    Scanner(handler, specs, 0, callbacks)
  }

  /** `toUpperCase` of one character, for the ASCII letters. */
  function UpperCase(c: char): (u: char)
    ensures 'a' <= c <= 'z' ==> 'A' <= u <= 'Z' && u as int - c as int == 'A' as int - 'a' as int
    ensures !('a' <= c <= 'z') ==> u == c
  {
    if 'a' <= c <= 'z' then (c as int - 'a' as int + 'A' as int) as char else c
  }

  /** `"on" + (name.slice(0, 1).toUpperCase() + name.slice(1))`. */
  function CallbackName(name: string): (r: string)
    ensures |r| == |name| + 2 && r[..2] == "on"
    ensures |name| > 0 ==> r[2] == UpperCase(name[0]) && r[3..] == name[1..]
  {
    "on" + (if |name| == 0 then "" else [UpperCase(name[0])] + name[1..])
  }

  /** `if (cappedSpecName in this) this[cappedSpecName](arg, controller)`: a callback the
      subclass does not define is skipped. The call is one `Callback` event; the callback's own
      effects on the controller are not modelled. */
  function Call(sc: Scanner, name: string, arg: Chunk): (r: seq<Event>)
    ensures name in sc.callbacks ==> r == [Callback(name, arg)]
    ensures name !in sc.callbacks ==> r == []
  {
    if name in sc.callbacks then [Callback(name, arg)] else []
  }

  /** `handleTransform(chunk)`. */
  function HandleTransform(sc: Scanner, chunk: Chunk): (r: Step<Scanner>)
    requires Valid(sc)
    ensures Valid(r.state)
    ensures r.state.handler == sc.handler && r.state.callbacks == sc.callbacks
    ensures |r.state.specs| == |sc.specs|
    // the spec index never goes back, and moves by one spec at most
    ensures sc.specIndex <= r.state.specIndex <= sc.specIndex + 1
    // what goes back to the root is a non-empty proper suffix of the chunk
    ensures r.redispatch.Some? ==>
              && 0 < |r.redispatch.value| < |chunk|
              && r.redispatch.value == chunk[|chunk| - |r.redispatch.value|..]
  {
    if sc.specIndex >= |sc.specs| then
      Step(sc, [Enqueue(chunk)], None, None)
    else if sc.specs[sc.specIndex].MatcherSpec? then
      MatcherStep(sc, chunk)
    else
      BytesStep(sc, chunk)
  }

  /** `transform(chunk)` of a scanner: the base class's guard, then `handleTransform`. */
  function Transform(sc: Scanner, chunk: Chunk): (r: Step<Scanner>)
    requires Valid(sc)
    ensures Valid(r.state) && r.state.handler == sc.handler && r.state.callbacks == sc.callbacks
    ensures |r.state.specs| == |sc.specs| && sc.specIndex <= r.state.specIndex
    ensures r.redispatch.Some? ==> |r.redispatch.value| < |chunk|
  {
    TransformHandlers.Transform(sc.handler, sc, chunk, HandleTransform)
  }

  /** The current spec with its matcher replaced by `m`. */
  function WithMatcher(sc: Scanner, m: MarkerMatcher.Matcher): (sc': Scanner)
    requires Valid(sc) && sc.specIndex < |sc.specs| && sc.specs[sc.specIndex].MatcherSpec?
    requires MarkerMatcher.Valid(m)
    ensures Valid(sc') && sc'.handler == sc.handler && sc'.callbacks == sc.callbacks
    ensures sc'.specIndex == sc.specIndex && |sc'.specs| == |sc.specs|
    ensures sc'.specs[sc.specIndex] == MatcherSpec(sc.specs[sc.specIndex].name, m)
    ensures forall i :: 0 <= i < |sc.specs| && i != sc.specIndex ==> sc'.specs[i] == sc.specs[i]
  {
    sc.(specs := sc.specs[sc.specIndex := MatcherSpec(sc.specs[sc.specIndex].name, m)])
  }

  /** The marker branch of `handleTransform`, lines after `"matcher" in spec`. */
  function MatcherStep(sc: Scanner, chunk: Chunk): (r: Step<Scanner>)
    requires Valid(sc) && sc.specIndex < |sc.specs| && sc.specs[sc.specIndex].MatcherSpec?
    ensures Valid(r.state)
    ensures r.state.handler == sc.handler && r.state.callbacks == sc.callbacks
    ensures |r.state.specs| == |sc.specs|
    ensures sc.specIndex <= r.state.specIndex <= sc.specIndex + 1
    ensures r.redispatch.Some? ==>
              && 0 < |r.redispatch.value| < |chunk|
              && r.redispatch.value == chunk[|chunk| - |r.redispatch.value|..]
  {
    var spec := sc.specs[sc.specIndex];
    var f := MarkerMatcher.Feed(spec.matcher, chunk);
    var sc' := WithMatcher(sc, f.1);
    match f.0
    case Matched(rest) =>
      MarkerMatcher.FeedRemainder(spec.matcher, chunk);
      var events := Call(sc, CallbackName(spec.name), spec.matcher.marker);
      var next := sc'.(specIndex := sc.specIndex + 1);
      if |rest| > 0 then TransformComplete(sc.handler, next, events, rest, None)
      else Step(next, events, None, None)
    case Matching =>
      Step(sc', [], None, None)
    case Unmatched =>
      Step(sc', [Enqueue(chunk)], None, None)
  }

  /** The byte-count branch of `handleTransform`, which runs on into `throw "Invalid spec"`. */
  function BytesStep(sc: Scanner, chunk: Chunk): (r: Step<Scanner>)
    requires Valid(sc) && sc.specIndex < |sc.specs| && sc.specs[sc.specIndex].BytesSpec?
    ensures r.state == sc && r.thrown.Some?
    ensures r.redispatch.Some? ==>
              && 0 < |r.redispatch.value| < |chunk|
              && r.redispatch.value == chunk[|chunk| - |r.redispatch.value|..]
  {
    var spec := sc.specs[sc.specIndex];
    var cut := SubarrayEnd(|chunk|, spec.numOfBytes);
    var events := Call(sc, CallbackName(spec.name), chunk[..cut]);
    var rest := chunk[cut..];
    if |rest| > 0 then TransformComplete(sc.handler, sc, events, rest, Some(InvalidSpec))
    else Step(sc, events, None, Some(InvalidSpec))
  }

  /** The matcher of the current spec, fed with the chunk. */
  function CurrentFeed(sc: Scanner, chunk: Chunk): (MarkerMatcher.FeedResult, MarkerMatcher.Matcher)
    requires Valid(sc) && sc.specIndex < |sc.specs| && sc.specs[sc.specIndex].MatcherSpec?
  {
    MarkerMatcher.Feed(sc.specs[sc.specIndex].matcher, chunk)
  }

  /** Past the last spec the chunk passes through unchanged and nothing else happens. */
  lemma PassThrough(sc: Scanner, chunk: Chunk)
    requires Valid(sc) && sc.specIndex >= |sc.specs|
    ensures HandleTransform(sc, chunk) == Step(sc, [Enqueue(chunk)], None, None)
  {
  }

  /** A marker spec whose matcher reports UNMATCHED: the chunk is enqueued unchanged and the
      scanner stays at the same spec, keeping the matcher as the chunk left it. */
  lemma MatcherUnmatched(sc: Scanner, chunk: Chunk)
    requires Valid(sc) && sc.specIndex < |sc.specs| && sc.specs[sc.specIndex].MatcherSpec?
    requires CurrentFeed(sc, chunk).0.Unmatched?
    ensures var r := HandleTransform(sc, chunk);
            && r.emitted == [Enqueue(chunk)] && r.redispatch.None? && r.thrown.None?
            && r.state.specIndex == sc.specIndex
            && r.state == sc.(specs := sc.specs[sc.specIndex :=
                                MatcherSpec(sc.specs[sc.specIndex].name, CurrentFeed(sc, chunk).1)])
  {
  }

  /** A marker spec whose matcher reports MATCHING: the chunk is neither enqueued nor kept; only
      the matcher's pointer remembers it. */
  lemma MatcherMatchingDrops(sc: Scanner, chunk: Chunk)
    requires Valid(sc) && sc.specIndex < |sc.specs| && sc.specs[sc.specIndex].MatcherSpec?
    requires CurrentFeed(sc, chunk).0.Matching?
    ensures var r := HandleTransform(sc, chunk);
            && r.emitted == [] && r.redispatch.None? && r.thrown.None?
            && r.state == sc.(specs := sc.specs[sc.specIndex :=
                                MatcherSpec(sc.specs[sc.specIndex].name, CurrentFeed(sc, chunk).1)])
  {
  }

  /** A marker spec whose matcher reports MATCHED: the scanner moves to the next spec, the
      callback (if defined) receives the marker itself, none of the chunk is enqueued (the bytes
      before the marker are dropped), and the bytes after the marker go back to the root. */
  lemma MatcherMatched(sc: Scanner, chunk: Chunk)
    requires Valid(sc) && sc.handler.rootTransformSet
    requires sc.specIndex < |sc.specs| && sc.specs[sc.specIndex].MatcherSpec?
    requires CurrentFeed(sc, chunk).0.Matched?
    ensures var r := HandleTransform(sc, chunk);
            var spec := sc.specs[sc.specIndex];
            var rest := CurrentFeed(sc, chunk).0.remainingChunk;
            && r.state.specIndex == sc.specIndex + 1
            && r.emitted == Call(sc, CallbackName(spec.name), spec.matcher.marker)
            && (forall e :: e in r.emitted ==> !e.Enqueue?)
            && r.thrown.None?
            && (|rest| > 0 <==> r.redispatch.Some?)
            && (|rest| > 0 ==> r.redispatch.value == rest)
  {
    var spec := sc.specs[sc.specIndex];
    var rest := CurrentFeed(sc, chunk).0.remainingChunk;
    var events := Call(sc, CallbackName(spec.name), spec.matcher.marker);
    var next := WithMatcher(sc, CurrentFeed(sc, chunk).1).(specIndex := sc.specIndex + 1);
    assert HandleTransform(sc, chunk) == MatcherStep(sc, chunk);
    if |rest| > 0 {
      assert MatcherStep(sc, chunk) == TransformComplete(sc.handler, next, events, rest, None);
    } else {
      assert MatcherStep(sc, chunk) == Step(next, events, None, None);
    }
  }

  /** A byte-count spec: the callback (if defined) receives the first `numOfBytes` bytes, the
      rest goes back to the root, the spec index does not move, and the call always ends by
      throwing — "Invalid spec" once the re-entry returns. */
  lemma BytesSpecThrows(sc: Scanner, chunk: Chunk)
    requires Valid(sc) && sc.handler.rootTransformSet
    requires sc.specIndex < |sc.specs| && sc.specs[sc.specIndex].BytesSpec?
    ensures var r := HandleTransform(sc, chunk);
            var spec := sc.specs[sc.specIndex];
            var cut := if spec.numOfBytes < |chunk| then spec.numOfBytes else |chunk|;
            && r.state == sc
            && r.emitted == Call(sc, CallbackName(spec.name), chunk[..cut])
            && (cut < |chunk| <==> r.redispatch.Some?)
            && (cut < |chunk| ==> r.redispatch.value == chunk[cut..])
            && r.thrown == Some(InvalidSpec)
  {
  }

  /** A scanner whose subclass defines no `on<Name>` method emits nothing but the chunk it was
      given, whole: every callback is skipped. */
  lemma NoCallbacksOnlyEnqueues(sc: Scanner, chunk: Chunk)
    requires Valid(sc) && sc.callbacks == {}
    ensures forall e :: e in HandleTransform(sc, chunk).emitted ==> e == Enqueue(chunk)
  {
    if sc.specIndex < |sc.specs| {
      var spec := sc.specs[sc.specIndex];
      if spec.MatcherSpec? {
        assert HandleTransform(sc, chunk) == MatcherStep(sc, chunk);
      } else {
        assert HandleTransform(sc, chunk) == BytesStep(sc, chunk);
        assert BytesStep(sc, chunk).emitted == [];
      }
    }
  }

  /** The spec index starts at 0 and never decreases, whatever the chunks. */
  lemma {:induction false} SpecIndexMonotone(sc: Scanner, chunks: seq<Chunk>)
    requires Valid(sc)
    ensures sc.specIndex <= Steps(sc, chunks).specIndex
    decreases |chunks|
  {
    if chunks != [] {
      SpecIndexMonotone(HandleTransform(sc, chunks[0]).state, chunks[1..]);
    }
  }

  /** The scanner's state after `handleTransform` on each chunk in turn. */
  function Steps(sc: Scanner, chunks: seq<Chunk>): (r: Scanner)
    requires Valid(sc)
    ensures Valid(r) && r.handler == sc.handler && |r.specs| == |sc.specs|
    decreases |chunks|
  {
    if chunks == [] then sc else Steps(HandleTransform(sc, chunks[0]).state, chunks[1..])
  }
}

=== FILE: seeker.dfy ===
/** The bounded marker automaton (`Seeker`): the automaton of `Matcher` plus a count of the
    bytes examined so far, an optional ceiling on that count, and the slices of the chunk around
    a completed match. */
module BoundedSeeker {
  import opened Bytes
  import MarkerMatcher

  /** What `Seeker.feed` reports. On a match, `soFarChunk` is the chunk up to and including the
      byte that completed the marker, `preceedingBytes` is meant to be what came before the
      marker, and `remainingChunk` is what follows it. */
  datatype SeekResult =
    | SeekMatching
    | SeekMatched(soFarChunk: Chunk, preceedingBytes: Chunk, remainingChunk: Chunk)
    | SeekUnmatched
    | Ended

  /** A `Seeker` instance: the marker and match pointer (kept as a `Matcher`, whose per-byte
      step `Seeker.feed` repeats word for word), the bytes examined so far and the ceiling,
      where 0 means "no ceiling". The unread `pending` buffer is not modelled. */
  datatype Seeker = Seeker(core: MarkerMatcher.Matcher, seekedNumOfBytes: nat, maxNumOfBytes: int)

  predicate Valid(s: Seeker) {
    MarkerMatcher.Valid(s.core)
  }

  /** The constructor: `maxNumOfBytes ?? 0`, pointer and count at 0. */
  function New(marker: Chunk, maxNumOfBytes: Option<int>): (s: Seeker)
    ensures Valid(s) && s.core == MarkerMatcher.New(marker) && s.seekedNumOfBytes == 0
    ensures maxNumOfBytes.None? ==> s.maxNumOfBytes == 0
    ensures maxNumOfBytes.Some? ==> s.maxNumOfBytes == maxNumOfBytes.value
  {
    Seeker(MarkerMatcher.New(marker), 0, if maxNumOfBytes.Some? then maxNumOfBytes.value else 0)
  }

  /** `!!this.maxNumOfBytes && this.seekedNumOfBytes > this.maxNumOfBytes`: a ceiling is set and
      the count is already past it. */
  predicate PastCeiling(s: Seeker) {
    s.maxNumOfBytes != 0 && s.seekedNumOfBytes > s.maxNumOfBytes
  }

  /** The loop of `Seeker.feed` from index `i` on: every byte is counted before it is compared. */
  function Scan(s: Seeker, chunk: Chunk, i: nat): (r: (SeekResult, Seeker))
    requires Valid(s) && i <= |chunk|
    ensures Valid(r.1) && r.1.core.marker == s.core.marker && r.1.maxNumOfBytes == s.maxNumOfBytes
    ensures !r.0.Ended?
    ensures !r.0.SeekMatched? ==> r.1.seekedNumOfBytes == s.seekedNumOfBytes + (|chunk| - i)
    ensures r.0.SeekMatched? ==>
              && i < |r.0.soFarChunk| <= |chunk|
              && r.1.seekedNumOfBytes == s.seekedNumOfBytes + (|r.0.soFarChunk| - i)
              && r.1.core.matchingPointer == 0
              && r.0.soFarChunk + r.0.remainingChunk == chunk
              && r.0.preceedingBytes ==
                 chunk[..SubarrayEnd(|chunk|, |r.0.soFarChunk| - |s.core.marker|)]
    ensures r.0.SeekMatching? <==> !r.0.SeekMatched? && r.1.core.matchingPointer > 0
    decreases |chunk| - i
  {
    if i == |chunk| then
      (if s.core.matchingPointer > 0 then SeekMatching else SeekUnmatched, s)
    else
      var step := MarkerMatcher.Step(s.core, chunk[i]);
      var s' := Seeker(step.1, s.seekedNumOfBytes + 1, s.maxNumOfBytes);
      if step.0 then
        SplitAt(chunk, i + 1);
        (SeekMatched(chunk[..i + 1],
                     chunk[..SubarrayEnd(|chunk|, i + 1 - |s.core.marker|)],
                     chunk[i + 1..]),
         s')
      else
        Scan(s', chunk, i + 1)
  }

  /** `Seeker.feed(chunk)`. */
  function Feed(s: Seeker, chunk: Chunk): (r: (SeekResult, Seeker))
    requires Valid(s)
    ensures Valid(r.1) && r.1.core.marker == s.core.marker && r.1.maxNumOfBytes == s.maxNumOfBytes
    // the ceiling is tested once, on entry, and then nothing is examined and nothing changes
    ensures r.0.Ended? <==> PastCeiling(s)
    ensures r.0.Ended? ==> r.1 == s
    // the count grows by the bytes examined: all of them, or those up to the match
    ensures !r.0.Ended? && !r.0.SeekMatched? ==>
              r.1.seekedNumOfBytes == s.seekedNumOfBytes + |chunk|
    ensures r.0.SeekMatched? ==>
              && 0 < |r.0.soFarChunk|
              && r.1.seekedNumOfBytes == s.seekedNumOfBytes + |r.0.soFarChunk|
              && r.1.core.matchingPointer == 0
              && r.0.soFarChunk + r.0.remainingChunk == chunk
              && r.0.preceedingBytes ==
                 chunk[..SubarrayEnd(|chunk|, |r.0.soFarChunk| - |s.core.marker|)]
    ensures r.0.SeekMatching? <==> !r.0.Ended? && !r.0.SeekMatched? && r.1.core.matchingPointer > 0
  {
    if PastCeiling(s) then (Ended, s) else Scan(s, chunk, 0)
  }

  /** From index `i` on, the seeker's loop is `Matcher.feed` on the rest of the chunk: the same
      result kind, the same match pointer, the same remainder. */
  lemma {:induction false} ScanAgrees(s: Seeker, chunk: Chunk, i: nat)
    requires Valid(s) && i <= |chunk|
    ensures var r := Scan(s, chunk, i);
            var f := MarkerMatcher.Feed(s.core, chunk[i..]);
            && r.1.core == f.1
            && (r.0.SeekMatched? <==> f.0.Matched?)
            && (r.0.SeekMatching? <==> f.0.Matching?)
            && (r.0.SeekMatched? ==> r.0.remainingChunk == f.0.remainingChunk)
    decreases |chunk| - i
  {
    if i == |chunk| {
      assert chunk[i..] == [];
    } else {
      assert chunk[i..][0] == chunk[i] && chunk[i..][1..] == chunk[i + 1..];
      var step := MarkerMatcher.Step(s.core, chunk[i]);
      var s' := Seeker(step.1, s.seekedNumOfBytes + 1, s.maxNumOfBytes);
      if !step.0 {
        assert Scan(s, chunk, i) == Scan(s', chunk, i + 1);
        assert MarkerMatcher.Feed(s.core, chunk[i..]) == MarkerMatcher.Feed(step.1, chunk[i + 1..]);
        ScanAgrees(s', chunk, i + 1);
      }
    }
  }

  /** Below the ceiling, `Seeker.feed` is `Matcher.feed` with a counter: the pointer invariant,
      the MATCHING/UNMATCHED rule and the byte that is not re-tested are those of `Matcher`. */
  lemma SeekerAgreesWithMatcher(s: Seeker, chunk: Chunk)
    requires Valid(s) && !PastCeiling(s)
    ensures var r := Feed(s, chunk);
            var f := MarkerMatcher.Feed(s.core, chunk);
            && r.1.core == f.1
            && (r.0.SeekMatched? <==> f.0.Matched?)
            && (r.0.SeekMatching? <==> f.0.Matching?)
            && (r.0.SeekUnmatched? <==> f.0.Unmatched?)
            && (r.0.SeekMatched? ==> r.0.remainingChunk == f.0.remainingChunk)
  {
    ScanAgrees(s, chunk, 0);
    assert chunk[0..] == chunk;
  }

  /** Without a ceiling the seeker never reports ENDED. */
  lemma NoCeilingNeverEnds(s: Seeker, chunk: Chunk)
    requires Valid(s) && s.maxNumOfBytes == 0
    ensures !Feed(s, chunk).0.Ended?
  {
  }

  /** The ceiling is checked only on entry: a chunk that carries the count past the ceiling is
      still examined to its end, and it is the next call that reports ENDED. */
  lemma CeilingCheckedOnEntry(s: Seeker, chunk: Chunk, next: Chunk)
    requires Valid(s) && s.maxNumOfBytes > 0 && s.seekedNumOfBytes <= s.maxNumOfBytes
    requires s.seekedNumOfBytes + |chunk| > s.maxNumOfBytes
    requires !Feed(s, chunk).0.SeekMatched?
    ensures !Feed(s, chunk).0.Ended?
    ensures Feed(s, chunk).1.seekedNumOfBytes == s.seekedNumOfBytes + |chunk|
    ensures Feed(Feed(s, chunk).1, next) == (Ended, Feed(s, chunk).1)
  {
  }

  /** When the marker lies wholly inside the chunk, the three slices of a match put the chunk
      back together around the marker: what precedes it, the marker, what follows it. */
  lemma PrecedingWithinChunk(s: Seeker, chunk: Chunk)
    requires Valid(s) && Feed(s, chunk).0.SeekMatched?
    requires |Feed(s, chunk).0.soFarChunk| >= |s.core.marker|
    ensures var r := Feed(s, chunk).0;
            r.preceedingBytes + s.core.marker + r.remainingChunk == chunk
  {
    var r := Feed(s, chunk).0;
    var k := |r.soFarChunk|;
    var marker := s.core.marker;
    assert chunk == r.soFarChunk + r.remainingChunk;
    assert r.soFarChunk == chunk[..k] && r.remainingChunk == chunk[k..];
    SeekerAgreesWithMatcher(s, chunk);
    var history := MarkerMatcher.MatchedPrefix(s.core);
    assert EndsWith(history, history);
    MarkerMatcher.FeedSoundMatched(s.core, history, chunk);
    assert |chunk| - |MarkerMatcher.Feed(s.core, chunk).0.remainingChunk| == k;
    EndsWithShorten(history, chunk[..k], marker);
    assert r.preceedingBytes == chunk[..k - |marker|];
    SplitTwice(chunk, k - |marker|, k);
  }

  /** When the match began in an earlier chunk, `i + 1 - matcher.length` is negative and
      `subarray` counts it back from the end of the chunk: `preceedingBytes` then runs on past
      the end of the match into the remainder. */
  lemma PrecedingAcrossChunks(s: Seeker, chunk: Chunk)
    requires Valid(s) && Feed(s, chunk).0.SeekMatched?
    requires |Feed(s, chunk).0.soFarChunk| < |s.core.marker|
    ensures var r := Feed(s, chunk).0;
            var back := |s.core.marker| - |r.soFarChunk|;
            && (back <= |chunk| ==> r.preceedingBytes == chunk[..|chunk| - back])
            && (back > |chunk| ==> r.preceedingBytes == [])
  {
  }

  /** A concrete case: `FF` completes half of `FF E1`, then the chunk `E1 00 01` completes it.
      `preceedingBytes` comes out as `E1 00`, bytes of the marker and of the remainder, not
      bytes that preceded the marker. */
  lemma PrecedingQuirkExample()
    ensures var s := Seeker(MarkerMatcher.Matcher([0xFF, 0xE1], 1), 1, 0);
            Feed(s, [0xE1, 0x00, 0x01]).0 ==
              SeekMatched([0xE1], [0xE1, 0x00], [0x00, 0x01])
  {
    var s := Seeker(MarkerMatcher.Matcher([0xFF, 0xE1], 1), 1, 0);
    var c: Chunk := [0xE1, 0x00, 0x01];
    assert MarkerMatcher.Step(s.core, c[0]).0;
    assert SubarrayEnd(3, -1) == 2;
    assert c[..1] == [0xE1] && c[..2] == [0xE1, 0x00] && c[1..] == [0x00, 0x01];
  }
}

=== FILE: transform_handler.dfy ===
/** `TransformHandler`: the base of every handler, holding the root transform that leftover bytes
    are handed back to, and guarding both entry points on it. */
module TransformHandlers {
  import opened Bytes

  /** What one call of a handler did, in the order it did it: the handler's state afterwards,
      the events it emitted itself, the leftover it handed back to the root transform through
      `transformComplete` (if any), and the error it threw once that re-entry had returned. */
  datatype Step<S> = Step(state: S, emitted: seq<Event>, redispatch: Option<Chunk>, thrown: Option<Error>)

  /** The part of a handler's state its base class owns: whether `_rootTransform` was set. The
      function itself is the root dispatcher of the transformer, and is not stored. */
  datatype Handler = Handler(rootTransformSet: bool)

  /** A freshly constructed handler: `_rootTransform` is undefined. */
  function Unset(): (h: Handler)
    ensures !h.rootTransformSet
  {
    Handler(false)
  }

  /** `setRootTransform`: the only writer of `_rootTransform`; `rootTransform` is a getter. */
  function SetRootTransform(h: Handler): (h': Handler)
    ensures h'.rootTransformSet
  {
    Handler(true)
  }

  /** `transform`: without a root transform it throws, having emitted nothing and changed
      nothing; with one, what happens is exactly what `handleTransform` does. */
  function Transform<S>(h: Handler, st: S, chunk: Chunk, handleTransform: (S, Chunk) --> Step<S>): (r: Step<S>)
    requires h.rootTransformSet ==> handleTransform.requires(st, chunk)
    ensures !h.rootTransformSet ==>
              r.state == st && r.emitted == [] && r.redispatch.None?
              && r.thrown == Some(ParentTransformStreamNotSet)
    ensures h.rootTransformSet ==> r == handleTransform(st, chunk)
  {
    if !h.rootTransformSet then Step(st, [], None, Some(ParentTransformStreamNotSet))
    else handleTransform(st, chunk)
  }

  /** A handler's call that ends in `transformComplete(chunk)`, after having emitted `emitted`
      and moved to `st`, and that goes on to throw `after` (if any) once the root transform has
      returned: the chunk goes to the root unchanged, or the guard throws first. */
  function TransformComplete<S>(h: Handler, st: S, emitted: seq<Event>, chunk: Chunk, after: Option<Error>): (r: Step<S>)
    ensures r.state == st && r.emitted == emitted
    ensures h.rootTransformSet ==> r.redispatch == Some(chunk) && r.thrown == after
    ensures !h.rootTransformSet ==>
              r.redispatch.None? && r.thrown == Some(ParentTransformStreamNotSet)
  {
    if !h.rootTransformSet then Step(st, emitted, None, Some(ParentTransformStreamNotSet))
    else Step(st, emitted, Some(chunk), after)
  }
}

=== FILE: utils.dfy ===
/** `compareUint8Arrays`: byte-wise equality of two arrays. */
module Utils {
  import opened Bytes

  /** Lengths first; then every byte of `a` against the byte of `b` at the same index. */
  function CompareUint8Arrays(a: Chunk, b: Chunk): (r: bool)
    ensures |a| != |b| ==> !r
    ensures r <==> a == b
  {
    |a| == |b| && EveryByteEqual(a, b, 0)
  }

  /** `a.every((byte, index) => byte === b[index])`, from index `from` on. */
  function EveryByteEqual(a: Chunk, b: Chunk, from: nat): (r: bool)
    requires |a| == |b| && from <= |a|
    ensures r <==> forall k :: from <= k < |a| ==> a[k] == b[k]
    decreases |a| - from
  {
    from == |a| || (a[from] == b[from] && EveryByteEqual(a, b, from + 1))
  }

  lemma CompareReflexive(a: Chunk)
    ensures CompareUint8Arrays(a, a)
  {
  }

  lemma CompareSymmetric(a: Chunk, b: Chunk)
    ensures CompareUint8Arrays(a, b) == CompareUint8Arrays(b, a)
  {
  }
}
